=== FILE: README.md ===
# treegen's tree generator, modelled in Dafny

treegen draws stylised trees. Its `Tree` class grows a tree recursively.
`grow(position)` spawns the trunk at depth 0. Every spawn (`__spawn_branch`)
below the depth budget records a new branch of `max(bpoints - depth, 0)`
points in a per-depth dictionary,
walking from its start point against its direction vector. Every point but
the first forks a child branch one depth down, and the last point, unless
it is also the first, forks a second child. With roughness on, every point also gets a 13-vertex
"roughness polygon" (`__wrap_in_polygon`), kept in a parallel per-depth
dictionary of twigs. `get_hitbox` later picks a few seed points of the
grown tree and orders them around the tree's position (`__polysort`).

The model is pure and functional. The tree's two dictionaries are
`map<nat, seq<seq<...>>>`, threaded through the mutually recursive
functions `Spawn`, `Steps` and `Fork`. Python's exceptions become a
`Result` with the exception as a `Fault`.

The modules:

- `Basics`: `Option`, `Min`, `Max` and `Last`.
- `Exceptions`: `Result` and the `Fault` kinds.
- `Draws`: the random module as an explicit stream of unit draws in [0, 1).
  `uniform(a, b)` is `a + (b - a) * u`. `randint(a, b)` is
  `a + floor(u * (b - a + 1))`.
- `Geometry`: points, the move `prev - dist * v`, `__get_angle` (as a
  multiple of pi) and the rotation sign.
- `Sorting`: a stable insertion sort keyed by one coordinate, in either
  order, standing for `list.sort`.
- `Roughness`: `__wrap_in_polygon`.
- `Growth`: the tree's state, the step distances, `__spawn_branch` and its
  loop.
- `Shape`: how many branches each depth gets, how long they are, and the
  forking rule.
- `Twigs`: the roughness dictionary mirrors the point dictionary.
- `Anchors`: children start where they were spawned.
- `Walking`: where branches go. Each point after a branch's first is the
  point before it moved back along the branch's vector by a legal
  distance, and children walk along the vectors steered from their
  parent's.
- `Planting`: `grow`.
- `Hitboxes`: `__polysort` and `get_hitbox`.

Inputs the model does not compute are parameters:

- The rotation, i.e. the cos/sin turn plus the `/1.61` shrink, is a caller-supplied
  `Turn` function taking a signed angle in multiples of pi.
- The random module is a `Source` of draws. Each call to it consumes one
  draw, in Python's evaluation order.
- Inside the recursion, the move, the child direction and the polygon
  builder are fields of an `Env`. `Planting.Environment` fills them in
  with `Advance`, `NextVector` and `Wrap`. The recursion relies only on two
  facts: a move of length zero stays put (`StaysPut`), and every polygon
  fits around its point (`Fitting`).

The loop over `range(4, 17)` in `__wrap_in_polygon` always deals 13
vertices: three to each of quadrants 1 to 3 and four to quadrant 4
(main.py:79-81). `grow` computes
`round(tallness / bpoints)` with Python 3's true division and its
round-half-to-even. The model does the same over exact rationals, and fails
with a zero division when `bpoints` is 0.

## Model

| member | source | states |
|---|---|---|
| Geometry.Angle | main.py:56-62 | the angle is 0 on the trunk and positive below it; it is pi/3 over the depth exactly when `bpoint < bpoints - iteration`, and pi/6 over the depth otherwise |
| Geometry.SignAlternates | main.py:67 | the sign `(-1) ** bpoint` is +1 exactly for even branch points and flips between neighbouring points |
| Geometry.AngleNarrows | main.py:56-62 | for a fixed branch point, the angle stays positive and strictly decreases from each depth to the next |
| Geometry.TipChildrenMirror | main.py:61-67 | the two children of a branch's last point turn by the same pi/6-based angle in opposite senses |
| Geometry.Advance | main.py:118 | a move by distance 0 stays put, and moving the new point back by `dist * v` returns the previous point |
| Geometry.Deflection | main.py:67 | the signed child angle is 0 exactly on the trunk; below it, it is the depth's angle, positive exactly for even branch points and its negation for odd ones |
| Geometry.NextVector | main.py:64-71 | the child's vector is the parent's vector turned by the depth's angle for an even branch point and by its negation for an odd one, and by no angle at depth 0 |
| Geometry.InteriorChildAngle | main.py:56-62 | a child spawned at an interior point of its parent turns by pi/3 over its depth |
| Draws.Uniform | main.py:117 | `random.uniform(lo, hi)` lies in `[lo, hi)` |
| Draws.RandInt | main.py:83-89 | `random.randint(lo, hi)` lies in `[lo, hi]` |
| Roughness.Span | main.py:76-77 | the offset span `max(thickness - 2, 1)` is at least 1 and is either 1 or `thickness - 2` |
| Roughness.Offset | main.py:81-89 | each quadrant's random shift obeys that quadrant's sign constraints within the span |
| Roughness.Generated | main.py:79-92 | the loop generates 13 vertices; the one for counter `vertix` lies in quadrant `4 - vertix % 4` |
| Roughness.DealtPerQuadrant | main.py:79-81 | counters 4 to 16 deal three vertices to each of quadrants 1 to 3 and four to quadrant 4 |
| Roughness.ScatterPermutes | main.py:79-92 | appending to the per-quadrant lists loses and invents no vertex |
| Roughness.DealingShape | main.py:75-92 | the quadrant lists have sizes 3, 3, 3, 4, hold only vertices of their own quadrant, and together are the generated vertices |
| Roughness.Wrap | main.py:73-96 | the polygon always has 13 vertices; its layout, ordering and contents are stated by Roughness.WrapQuadrants, WrapOrdering, WrapPermutes and WrapWithinSpan |
| Roughness.WrapQuadrants | main.py:73-96 | the polygon has 13 vertices: 0-2 in quadrant 1, 3-5 in quadrant 2, 6-8 in quadrant 3, 9-12 in quadrant 4 |
| Roughness.WrapOrdering | main.py:94-96 | quadrants 1 and 2 run by x non-increasing, quadrants 3 and 4 by x non-decreasing |
| Roughness.WrapPermutes | main.py:94-96 | the polygon is a rearrangement of exactly the generated vertices |
| Roughness.WrapWithinSpan | main.py:76-92 | every vertex lies within the span of its centre on both axes |
| Sorting.Sort | main.py:94-96 | the sorted list is ordered by the key in the requested order and is a permutation of its input |
| Growth.StepDistance | main.py:111-117 | step 0 moves no distance; depth-0 step 1 moves `root_height` without a draw when it is positive; any other step consumes one draw and moves a distance in [0.5, 1) |
| Growth.OpenedFresh | main.py:101-109 | a spawn first appends one empty branch at its depth, and one empty twig when roughness is on, keeps every earlier entry and every other depth, and consumes no draw |
| Growth.Place | main.py:118-122 | a step appends its new point to the current branch and nothing else; with roughness on it also appends that point's polygon to the current twig; with roughness off the twig dictionary is untouched |
| Growth.Spawn | main.py:98-132 | a spawn never changes the entries recorded at shallower depths |
| Growth.Steps | main.py:110-132 | the loop leaves every depth shallower than the branch's untouched; its counts and layout are stated by Shape.StepsCounts, Shape.StepsBranch and Shape.StepsLayout |
| Growth.Fork | main.py:124-130 | forking children at depth `d + 1` leaves depths up to `d` unchanged |
| Shape.SpawnCounts | main.py:100-130 | one spawn at depth `d` adds `Recorded(t, d, e)` branches at depth `e`, which is none from the depth budget on |
| Shape.RecordedLevels | main.py:100-130 | the depth-first count of the recursion equals the level-by-level count `Branches` (one trunk, then `Fan` times as many per depth) |
| Shape.ForkRule | main.py:124-130 | a branch of `n` points forks `n` children when `n >= 2` and none when `n <= 1` |
| Shape.KidsFrom | main.py:124-130 | from step `b` on, a branch of `n >= 2` points forks one child per step past the first plus one at its tip |
| Shape.RecordedByChildren | main.py:111-130 | below the budget, a spawn records `n` times what one child records at every deeper depth, and nothing deeper when its branch has at most one point |
| Shape.SpawnBranch | main.py:100-119 | below the depth budget, a spawn appends exactly one branch at its depth; the branch has `max(bpoints - d, 0)` points and starts at the spawn position |
| Shape.SpawnLayout | main.py:100-132 | a spawn keeps every earlier entry at every depth as a prefix and appends only finished branches |
| Shape.StepsStart | main.py:110-119 | a branch's first point is the point it was spawned from |
| Twigs.SpawnTidy | main.py:105-122 | with roughness on, the twig dictionary has the same depths and the same number of entries per depth as the point dictionary, each twig holding one polygon per point that fits around it; with roughness off no twig depth is recorded |
| Anchors.ForkAnchors | main.py:124-130 | the children forked by a step start at that step's point |
| Anchors.StepForks | main.py:118-130 | right after step `b`, the children it forked start at point `b` of the branch |
| Anchors.StepAnchor | main.py:111-132 | once the remaining steps finish the branch, the children forked at step `b` still start at the branch's point `b` |
| Walking.DistanceLegal | main.py:111-117 | every step distance is legal for its step: 0 at step 0, `root_height` at the trunk's step 1 when that is positive, and otherwise in [0.5, 1) |
| Walking.PlaceStepped | main.py:111-119 | the point a step places is the previous point moved back along the branch's vector by a legal distance |
| Walking.StepsWalks | main.py:110-131 | the remaining steps keep the branch walking: each new point is its predecessor moved back along the branch's vector by a legal distance, whatever the children forked in between record |
| Walking.SpawnWalks | main.py:100-131 | below the depth budget, the branch a spawn appends walks along the spawn's vector, and the spawn keeps the earlier branches of that depth |
| Walking.ForkWalks | main.py:124-130 | the first child forked at step `b` walks along the parent's vector steered for branch point `b`; the tip's second child walks along the one steered for `b + 1` |
| Walking.LastForkWalks | main.py:124-130 | at the tip both children are recorded in order, the first along the vector steered for `b` and the second along the one steered for `b + 1` |
| Walking.WalksAlike | main.py:118 | whether a branch walks depends only on what the move computes |
| Walking.GrowWalks | main.py:187-191 | `grow` lays the trunk out from the position in legal steps of `Advance` against the trunk's vector |
| Planting.RoundHalfEven | main.py:189 | Python 3 `round`: within 0.5 of its argument, and even on a tie |
| Planting.RoundUnique | main.py:189 | the rounding contract singles out exactly one integer |
| Planting.Grow | main.py:187-191 | `grow` fails with a zero division exactly when `bpoints == 0`, and otherwise stores the position |
| Planting.Environment | main.py:64-122 | the recursion is handed `Advance` as its move (so distance 0 stays put), polygons that fit around their points, the caller's draws, and children turned by `NextVector` |
| Planting.TrunkVector | main.py:191 | the trunk's vector is `(0, dist)` turned by the zero angle of depth 0 |
| Planting.GrowShaped | main.py:187-191 | a freshly grown tree records `Branches(t, e)` finished branches at every depth, tidy twigs, and a trunk starting at the `grow` position |
| Hitboxes.Pick | main.py:139-143 | the points strictly on one side of the position's vertical line, each as often as in the input, and nothing else |
| Hitboxes.Polysort | main.py:134-146 | the first point and the left points come first, by y descending, then the right points, by y ascending |
| Hitboxes.PolysortCounts | main.py:137-146 | the output holds the first point once more than the input does, every off-line point as often as the input, and no other on-line point |
| Hitboxes.PolysortMembers | main.py:137-146 | a point is in the output exactly when it is the first point or an input point off the line |
| Hitboxes.SeedsFrom | main.py:177-183 | seeding succeeds exactly when every branch from index `br` can give its seeds; it then yields each branch's first and last points in order, or with roughness on the last vertex of each twig's last polygon; otherwise it raises an index error, or a key error when the twig depth is missing |
| Hitboxes.Seeds | main.py:177-183 | a depth that was never recorded raises a key error; a recorded one yields one seed per branch with roughness on and two without |
| Hitboxes.HitboxAt | main.py:170-185 | no depth gives an empty hitbox; with a second depth recorded, a missing seed depth raises; the only faults are key, index and type errors; a hitbox holds exactly the trunk's base and, of the points off the vertical line through the position, the trunk's top and every seed of the seeding depth, with the base and the left points first by y descending and the right points after them by y ascending |
| Hitboxes.Hitbox | main.py:170-185 | `get_hitbox` as written: empty on an ungrown tree, a failure whenever two depths exist but depth `min(2, iterations - 1)` does not, and when it succeeds exactly the trunk's base plus the off-line trunk top and seeds of depth `min(2, iterations - 1)`, arranged around the position |
| Hitboxes.HitboxDeepest | main.py:177-179 | the corrected seeding, from depth `min(2, iterations - 1)` or one shallower when that depth is missing, agrees with the original wherever the original succeeds, is empty on an ungrown tree, and when it succeeds holds exactly the trunk's base plus the off-line trunk top and seeds of that depth, arranged around the position |
| Hitboxes.HitboxBeforeGrowth | main.py:170-185 | before `grow`, the hitbox is empty |
| Hitboxes.GrownDepths | main.py:100-130 | which depths a grown tree records: none without a budget, a second one exactly when the trunk forks, and depth 2 (with a budget of 3 or more) exactly when `bpoints >= 3` |
| Hitboxes.GrownHitbox | main.py:170-185 | on a grown tree: empty without a budget, an index error for a negative `bpoints`, a key error for `bpoints == 2` with three or more depths, otherwise a hitbox holding the origin |
| Hitboxes.HitboxKeyError | main.py:177-179 | the tree `iterations = 3, bpoints = 2` makes `get_hitbox` raise a key error |
| Hitboxes.GrownHitboxDeepest | main.py:177-179 | with the corrected seeding depth, every grown tree with `bpoints >= 1` has a hitbox holding the origin |

## Left out

- PIL drawing, the canvas, `draw`, the random colour helpers and `Forest`: rendering and glue with no logic of the tree's own.
- The `run` entry point in `__init__.py`: it only wires the other parts together and writes an image file.
- The trigonometry and the `/1.61` shrink of `__get_new_vector`: floating-point work. It is the caller-supplied `Turn`; only the angle and its sign are modelled.
- Floating-point rounding in general: coordinates and distances are exact reals.
- `get_size`: floating-point arithmetic on the hitbox, which adds nothing to the tree's structure.
- `get_position` is a plain accessor; the model's `TreeState.position` is the value it returns.
- Draws.RandInt: Python draws `randint` from `getrandbits`, not from a unit value. The model only keeps the range and the one-draw-per-call order.
- Draws.Uniform: the model's draw lies in `[lo, hi)`, while Python's `uniform` may also return `hi` through rounding.
- Sorting.Sort: stated as sorted and a permutation. Stability is kept by the definition but is not stated as a property.
- Anchors.StepAnchor: states the anchor of the children of one step, indexed from the depth's length before that step. The closed form for the whole branch, with child `j` of a spawn at point `min(j + 1, n - 1)`, is not stated.
- The mutable aliasing of `branch` and `twig`: Python keeps a reference to the current list. The model appends to the last entry of the depth, and `Growth.Fork` shows that the children only touch deeper depths.

## Findings

| source | as written | input that shows it | evidently intended | confidence | as-written member | corrected member |
|---|---|---|---|---|---|---|
| main.py:177-179 | once two depths are recorded, `get_hitbox` reads depth `min(2, iterations - 1)` unconditionally | `Tree(iterations=3, bpoints=2)`: the trunk's two children have one point each and fork nothing, so depth 2 is never recorded and `self.__points[2]` raises `KeyError` | seed from one depth shallower when depth `min(2, iterations - 1)` is missing | high (not executed) | Hitboxes.HitboxKeyError | Hitboxes.GrownHitboxDeepest |

=== FILE: anchors.dfy ===
/** Where children start: every child branch starts at the point of its
    parent from which it was spawned. */
module Anchors {
  import opened Basics
  import opened Geometry
  import opened Growth
  import opened Shape

  /** The children of step `b` start at that step's point `p`. */
  lemma ForkAnchors(t: Tree, env: Env, g: Growth, p: Point, d: nat, v: Point, b: nat, j: nat)
    requires StaysPut(env.move)
    requires d + 1 < t.iterations && Count(t, d + 1) > 0
    requires j < Forks(Count(t, d), b)
    ensures var r := Fork(t, env, g, p, d, v, b);
      && |At(r.points, d + 1)| > |At(g.points, d + 1)| + j
      && StartsAt(At(r.points, d + 1)[|At(g.points, d + 1)| + j], p)
  {
    var r := Fork(t, env, g, p, d, v, b);
    var v1 := env.steer(v, d + 1, b);
    var g1 := Spawn(t, env, g, p, d + 1, v1);
    var before := At(g.points, d + 1);
    var once := At(g1.points, d + 1);
    assert |once| == |before| + 1 && StartsAt(once[|before|], p) by {
      SpawnBranch(t, env, g, p, d + 1, v1);
    }
    if b == Count(t, d) - 1 {
      var v2 := env.steer(v, d + 1, b + 1);
      var twice := At(Spawn(t, env, g1, p, d + 1, v2).points, d + 1);
      assert At(r.points, d + 1) == twice;
      assert |twice| == |once| + 1 && once <= twice && StartsAt(twice[|once|], p) by {
        SpawnBranch(t, env, g1, p, d + 1, v2);
      }
      TwoChildren(before, once, twice, j, p);
    } else {
      assert r == g1;
    }
  }

  /** Two children appended one after the other at the same point. */
  lemma TwoChildren(before: seq<seq<Point>>, once: seq<seq<Point>>, twice: seq<seq<Point>>, j: nat, p: Point)
    requires j < 2
    requires |once| == |before| + 1 && StartsAt(once[|before|], p)
    requires |twice| == |once| + 1 && once <= twice && StartsAt(twice[|once|], p)
    ensures |twice| > |before| + j && StartsAt(twice[|before| + j], p)
  {
    if j == 0 {
      assert twice[|before|] == once[|before|];
    }
  }

  /** The children forked at step `b` of a branch at depth `d` start at
      point `b` of that branch as the remaining steps finish it. */
  lemma StepAnchor(t: Tree, env: Env, g: Growth, prev: Point, d: nat, v: Point, b: nat, j: nat)
    requires StaysPut(env.move)
    requires d + 1 < t.iterations
    requires |At(g.points, d)| > 0
    requires t.roughness ==> |At(g.polygons, d)| > 0
    requires |Last(At(g.points, d))| == b < Count(t, d)
    requires Count(t, d) >= 2 && j < Forks(Count(t, d), b)
    ensures var r := Steps(t, env, g, prev, d, v, b);
      && |At(r.points, d)| > 0
      && |Last(At(r.points, d))| == Count(t, d)
      && |At(r.points, d + 1)| > |At(g.points, d + 1)| + j
      && |At(r.points, d + 1)[|At(g.points, d + 1)| + j]| > 0
      && At(r.points, d + 1)[|At(g.points, d + 1)| + j][0] == Last(At(r.points, d))[b]
  {
    var fd, fk := StepHalfway(t, env, g, prev, d, v, b, j);
    var r := Steps(t, env, g, prev, d, v, b);
    var k := |At(g.points, d + 1)| + j;
    assert b < |fd| && k < |fk| && |fk[k]| > 0 && fk[k][0] == fd[b];
    Settle(t, r, d, fd, fk, k, b);
  }

  /** A child sitting at point `b` of a branch so far still sits there in
      any state that only extends the branch and its depth's children. */
  lemma Settle(t: Tree, r: Growth, d: nat, fd: seq<Point>, fk: seq<seq<Point>>, k: nat, b: nat)
    requires b < |fd| && k < |fk| && |fk[k]| > 0 && fk[k][0] == fd[b]
    requires |At(r.points, d)| > 0 && |Last(At(r.points, d))| == Count(t, d)
    requires fd <= Last(At(r.points, d)) && fk <= At(r.points, d + 1)
    ensures |At(r.points, d)| > 0 && |Last(At(r.points, d))| == Count(t, d)
    ensures |At(r.points, d + 1)| > k && |At(r.points, d + 1)[k]| > 0
    ensures At(r.points, d + 1)[k][0] == Last(At(r.points, d))[b]
  {
    Inherit(fd, Last(At(r.points, d)), fk, At(r.points, d + 1), k, b);
  }

  /** The branch and the depth below as step `b` leaves them: the child
      sits at point `b`, and the remaining steps only extend both. */
  lemma StepHalfway(t: Tree, env: Env, g: Growth, prev: Point, d: nat, v: Point, b: nat, j: nat)
      returns (fd: seq<Point>, fk: seq<seq<Point>>)
    requires StaysPut(env.move)
    requires d + 1 < t.iterations
    requires |At(g.points, d)| > 0
    requires t.roughness ==> |At(g.polygons, d)| > 0
    requires |Last(At(g.points, d))| == b < Count(t, d)
    requires Count(t, d) >= 2 && j < Forks(Count(t, d), b)
    ensures b < |fd| && |fk| > |At(g.points, d + 1)| + j
    ensures |fk[|At(g.points, d + 1)| + j]| > 0 && fk[|At(g.points, d + 1)| + j][0] == fd[b]
    ensures var r := Steps(t, env, g, prev, d, v, b);
      && |At(r.points, d)| > 0 && |Last(At(r.points, d))| == Count(t, d)
      && fd <= Last(At(r.points, d)) && fk <= At(r.points, d + 1)
  {
    var placed := Place(t, env, g, prev, d, v, b);
    var f := Fork(t, env, placed.0, placed.1, d, v, b);
    StepOnFinished(t, env, g, prev, d, v, b);
    StepForks(t, env, g, prev, d, v, b, j);
    fd, fk := Last(At(f.points, d)), At(f.points, d + 1);
  }

  /** Right after step `b`, its children start at the point it placed,
      the branch's point `b`. */
  lemma StepForks(t: Tree, env: Env, g: Growth, prev: Point, d: nat, v: Point, b: nat, j: nat)
    requires StaysPut(env.move)
    requires d + 1 < t.iterations
    requires |At(g.points, d)| > 0
    requires t.roughness ==> |At(g.polygons, d)| > 0
    requires |Last(At(g.points, d))| == b < Count(t, d)
    requires Count(t, d) >= 2 && j < Forks(Count(t, d), b)
    ensures var placed := Place(t, env, g, prev, d, v, b);
      var f := Fork(t, env, placed.0, placed.1, d, v, b);
      && |At(f.points, d)| > 0 && |Last(At(f.points, d))| == b + 1
      && |At(f.points, d + 1)| > |At(g.points, d + 1)| + j
      && StartsAt(At(f.points, d + 1)[|At(g.points, d + 1)| + j], Last(At(f.points, d))[b])
  {
    NextCount(t, d);
    StepPlaces(t, env, g, prev, d, v, b);
    var placed := Place(t, env, g, prev, d, v, b);
    ForkAnchors(t, env, placed.0, placed.1, d, v, b, j);
  }

  /** A branch one depth down has one point fewer. */
  lemma NextCount(t: Tree, d: nat)
    requires Count(t, d) >= 1
    ensures Count(t, d + 1) == Count(t, d) - 1
  {
  }

  /** One step of a branch at depth `d` below the deepest: the later steps
      go on from the point it places and the children it forks. */
  lemma StepUnfolds(t: Tree, env: Env, g: Growth, prev: Point, d: nat, v: Point, b: nat)
    requires d + 1 < t.iterations
    requires |At(g.points, d)| > 0
    requires t.roughness ==> |At(g.polygons, d)| > 0
    requires b < Count(t, d)
    ensures var placed := Place(t, env, g, prev, d, v, b);
      var f := Fork(t, env, placed.0, placed.1, d, v, b);
      var r := Steps(t, env, f, placed.1, d, v, b + 1);
      var s := Steps(t, env, g, prev, d, v, b);
      At(s.points, d) == At(r.points, d) && At(s.points, d + 1) == At(r.points, d + 1)
  {
    var placed := Place(t, env, g, prev, d, v, b);
    var f := Fork(t, env, placed.0, placed.1, d, v, b);
    assert Steps(t, env, g, prev, d, v, b) == Steps(t, env, f, placed.1, d, v, b + 1);
  }

  /** The same step's own work: it appends point `b` to the branch, leaves
      the depth below as it was, and then forks `Forks(n, b)` children
      there. */
  lemma StepPlaces(t: Tree, env: Env, g: Growth, prev: Point, d: nat, v: Point, b: nat)
    requires StaysPut(env.move)
    requires d + 1 < t.iterations
    requires |At(g.points, d)| > 0
    requires t.roughness ==> |At(g.polygons, d)| > 0
    requires |Last(At(g.points, d))| == b < Count(t, d)
    ensures var placed := Place(t, env, g, prev, d, v, b);
      var f := Fork(t, env, placed.0, placed.1, d, v, b);
      && At(placed.0.points, d + 1) == At(g.points, d + 1)
      && |At(f.points, d)| > 0 && (t.roughness ==> |At(f.polygons, d)| > 0)
      && |Last(At(f.points, d))| == b + 1 && Last(At(f.points, d))[b] == placed.1
      && |At(f.points, d + 1)| == |At(g.points, d + 1)| + Forks(Count(t, d), b)
  {
    var placed := Place(t, env, g, prev, d, v, b);
    PlaceStep(t, env, g, prev, d, v, b);
    ForkKeeps(t, env, placed.0, placed.1, d, v, b);
  }

  /** Placing point `b` appends it to the branch and leaves the depth below
      as it was. */
  lemma PlaceStep(t: Tree, env: Env, g: Growth, prev: Point, d: nat, v: Point, b: nat)
    requires |At(g.points, d)| > 0
    requires t.roughness ==> |At(g.polygons, d)| > 0
    requires |Last(At(g.points, d))| == b
    ensures var placed := Place(t, env, g, prev, d, v, b);
      && At(placed.0.points, d + 1) == At(g.points, d + 1)
      && |At(placed.0.points, d)| > 0 && (t.roughness ==> |At(placed.0.polygons, d)| > 0)
      && |Last(At(placed.0.points, d))| == b + 1 && Last(At(placed.0.points, d))[b] == placed.1
  {
    var placed := Place(t, env, g, prev, d, v, b);
    assert Appended(g.points, placed.0.points, d, placed.1);
  }

  /** Forking leaves the branch's own depth as it was and records
      `Forks(n, b)` children one depth down. */
  lemma ForkKeeps(t: Tree, env: Env, g: Growth, p: Point, d: nat, v: Point, b: nat)
    requires d + 1 < t.iterations
    ensures var f := Fork(t, env, g, p, d, v, b);
      && At(f.points, d) == At(g.points, d) && At(f.polygons, d) == At(g.polygons, d)
      && |At(f.points, d + 1)| == |At(g.points, d + 1)| + Forks(Count(t, d), b)
  {
    ForkCounts(t, env, g, p, d, v, b, d + 1);
  }

  /** The same step, with the later steps finishing the branch and keeping
      what it and the depth below already hold. */
  lemma StepOnFinished(t: Tree, env: Env, g: Growth, prev: Point, d: nat, v: Point, b: nat)
    requires StaysPut(env.move)
    requires d + 1 < t.iterations
    requires |At(g.points, d)| > 0
    requires t.roughness ==> |At(g.polygons, d)| > 0
    requires |Last(At(g.points, d))| == b < Count(t, d)
    ensures var placed := Place(t, env, g, prev, d, v, b);
      var f := Fork(t, env, placed.0, placed.1, d, v, b);
      var r := Steps(t, env, g, prev, d, v, b);
      && At(placed.0.points, d + 1) == At(g.points, d + 1)
      && |At(f.points, d)| > 0
      && |Last(At(f.points, d))| == b + 1 && Last(At(f.points, d))[b] == placed.1
      && |At(f.points, d + 1)| == |At(g.points, d + 1)| + Forks(Count(t, d), b)
      && |At(r.points, d)| > 0 && |Last(At(r.points, d))| == Count(t, d)
      && Last(At(f.points, d)) <= Last(At(r.points, d))
      && At(f.points, d + 1) <= At(r.points, d + 1)
  {
    var placed := Place(t, env, g, prev, d, v, b);
    var f := Fork(t, env, placed.0, placed.1, d, v, b);
    StepUnfolds(t, env, g, prev, d, v, b);
    StepPlaces(t, env, g, prev, d, v, b);
    StepsBranch(t, env, f, placed.1, d, v, b + 1);
    StepsLayout(t, env, f, placed.1, d, v, b + 1, d + 1);
  }

  /** A child that starts at point `b` of a branch so far still starts
      there once the branch and its depth's children have grown on. */
  lemma Inherit(fd: seq<Point>, rd: seq<Point>, fk: seq<seq<Point>>, rk: seq<seq<Point>>, k: nat, b: nat)
    requires b < |fd| && fd <= rd
    requires k < |fk| && fk <= rk && StartsAt(fk[k], fd[b])
    ensures b < |rd| && k < |rk| && StartsAt(rk[k], rd[b])
  {
    assert rk[k] == fk[k] && rd[b] == fd[b];
  }
}

=== FILE: basics.dfy ===
/** Small helpers shared by every module: an optional value, integer
    minimum and maximum, and the last element of a non-empty sequence. */
module Basics {

  datatype Option<+T> = None | Some(value: T)

  function Min(a: int, b: int): int { if a <= b then a else b }

  function Max(a: int, b: int): int { if a <= b then b else a }

  function Last<T>(s: seq<T>): T
    requires |s| > 0
  {
    s[|s| - 1]
  }
}

=== FILE: draws.dfy ===
/** The process-wide random source, replaced by an explicit stream of draws.
    The i-th call the growth makes into the random module sees the unit value
    `rng(i)`, which lies in [0, 1); each call maps its unit value onto the
    range it asked for. */
module Draws {

  /** A unit value: what `random.random()` returns. */
  type Unit = u: real | 0.0 <= u < 1.0

  type Source = nat -> Unit

  /** `random.uniform(lo, hi)`: lo + (hi - lo) * u. */
  function Uniform(lo: real, hi: real, u: Unit): (r: real)
    requires lo < hi
    ensures lo <= r < hi
  {
    lo + Scale(hi - lo, u)
  }

  /** `random.randint(lo, hi)`: an integer of [lo, hi], both ends included,
      chosen uniformly by the unit value u. */
  function RandInt(lo: int, hi: int, u: Unit): (r: int)
    requires lo <= hi
    ensures lo <= r <= hi
  {
    lo + Scale((hi - lo + 1) as real, u).Floor
  }

  /** A unit value scales a positive width into [0, width). */
  function Scale(width: real, u: Unit): (r: real)
    requires width > 0.0
    ensures 0.0 <= r < width
  {
    var rest := width * (1.0 - u);
    assert rest > 0.0;
    assert width * u == width - rest;
    width * u
  }
}

=== FILE: exceptions.dfy ===
/** Outcomes of the tree operations: a value, or the Python exception the
    operation raises instead. */
module Exceptions {

  /** The exceptions the modelled code can raise on its own inputs. */
  datatype Fault =
    | ZeroDivision  // ZeroDivisionError
    | IndexError    // IndexError: a list indexed past its end
    | KeyError      // KeyError: a dictionary key that was never recorded
    | TypeError     // TypeError: a None position indexed as a tuple

  datatype Result<+T> = Success(value: T) | Failure(fault: Fault)
}

=== FILE: geometry.dfy ===
/** Branch angles and the direction vector handed to each child branch. */
module Geometry {

  datatype Point = Point(x: real, y: real)

  /** Rotation of a vector by a signed angle, given as a multiple of pi,
      followed by the constant shrink applied at every depth step. The
      trigonometry and the shrink factor are supplied by the caller. */
  type Turn = (Point, real) -> Point

  /** The move from a point by a distance against a direction vector. */
  type Move = (Point, real, Point) -> Point

  /** `prev - dist * v`, componentwise: growth runs against the vector. */
  function Advance(prev: Point, dist: real, v: Point): (r: Point)
    ensures dist == 0.0 ==> r == prev
    ensures Point(r.x + dist * v.x, r.y + dist * v.y) == prev
  {
    Point(prev.x - dist * v.x, prev.y - dist * v.y)
  }

  /** A move by distance zero stays where it is. */
  ghost predicate StaysPut(move: Move)
  {
    forall p, v :: move(p, 0.0, v) == p
  }

  lemma AdvanceStaysPut()
    ensures StaysPut(Advance)
  {
  }

  /** The branch angle of depth `iteration` at branch point `bpoint`, as a
      multiple of pi: none on the trunk, otherwise a base of pi/3 (60 degrees)
      or pi/6 (30 degrees) divided by the depth. `bpoints` is the tree's
      branch-point budget. */
  function Angle(bpoints: int, iteration: nat, bpoint: int): (a: real)
    ensures iteration == 0 ==> a == 0.0
    ensures iteration > 0 ==> a > 0.0
    ensures iteration > 0 ==>
      (a * iteration as real == 1.0 / 3.0 <==> bpoint < bpoints - iteration)
    ensures iteration > 0 ==>
      (a * iteration as real == 1.0 / 6.0 <==> bpoint >= bpoints - iteration)
  {
    if iteration == 0 then 0.0
    else
      var base := if bpoint < bpoints - iteration then 1.0 / 3.0 else 1.0 / 6.0;
      base / iteration as real
  }

  /** `(-1) ** bpoint`: the rotation sense alternates with the parity of the
      branch point. */
  function Sign(bpoint: int): int
  {
    if bpoint % 2 == 0 then 1 else -1
  }

  /** The signed angle by which the child spawned at `bpoint` turns away from
      its parent's vector. */
  function Deflection(bpoints: int, nextIteration: nat, bpoint: int): (a: real)
    ensures a == 0.0 <==> nextIteration == 0
    ensures nextIteration > 0 ==> (a > 0.0 <==> bpoint % 2 == 0)
    ensures a == Angle(bpoints, nextIteration, bpoint) || a == -Angle(bpoints, nextIteration, bpoint)
  {
    Sign(bpoint) as real * Angle(bpoints, nextIteration, bpoint)
  }

  /** The direction vector of the child branch at depth `nextIteration`. */
  function NextVector(turn: Turn, bpoints: int, nextIteration: nat, v: Point, bpoint: int): (r: Point)
    ensures nextIteration == 0 ==> r == turn(v, 0.0)
    ensures bpoint % 2 == 0 ==> r == turn(v, Angle(bpoints, nextIteration, bpoint))
    ensures bpoint % 2 != 0 ==> r == turn(v, -Angle(bpoints, nextIteration, bpoint))
  {
    turn(v, Deflection(bpoints, nextIteration, bpoint))
  }

  /** Neighbouring branch points turn their children in opposite senses. */
  lemma SignAlternates(bpoint: int)
    ensures Sign(bpoint) == 1 || Sign(bpoint) == -1
    ensures Sign(bpoint + 1) == -Sign(bpoint)
    ensures Sign(bpoint) == 1 <==> bpoint % 2 == 0
  {
  }

  /** For a fixed branch point, the angle strictly narrows as the depth grows
      (from depth 1 on): the base can only drop from pi/3 to pi/6 and the
      divisor grows. */
  lemma AngleNarrows(bpoints: int, iteration: nat, bpoint: int)
    requires iteration >= 1
    ensures 0.0 < Angle(bpoints, iteration + 1, bpoint) < Angle(bpoints, iteration, bpoint)
  {
    var deeper := if bpoint < bpoints - (iteration + 1) then 1.0 / 3.0 else 1.0 / 6.0;
    var here := if bpoint < bpoints - iteration then 1.0 / 3.0 else 1.0 / 6.0;
    Narrower(deeper, here, iteration as real);
  }

  /** Dividing a smaller positive base by a larger depth gives a smaller angle. */
  lemma Narrower(a: real, b: real, k: real)
    requires 0.0 < a <= b && k >= 1.0
    ensures 0.0 < a / (k + 1.0) < b / k
  {
    var x := a / (k + 1.0);
    var y := b / k;
    assert x * (k + 1.0) == a;
    assert y * k == b;
    assert x > 0.0;
    assert y > 0.0;
  }

  /** At depth `nextIteration`, the two children of a branch's tip (branch
      points `n - 1` and `n`, with `n = bpoints - depth` points on the parent)
      turn by the same pi/6 angle in opposite senses. */
  lemma TipChildrenMirror(bpoints: int, nextIteration: nat)
    requires nextIteration >= 1
    requires bpoints - nextIteration >= 1
    ensures Deflection(bpoints, nextIteration, bpoints - nextIteration + 1)
         == -Deflection(bpoints, nextIteration, bpoints - nextIteration)
    ensures Angle(bpoints, nextIteration, bpoints - nextIteration)
         == (1.0 / 6.0) / nextIteration as real
  {
    SignAlternates(bpoints - nextIteration);
  }

  /** The child of an interior branch point (one that is neither the first
      nor the last of a parent with `bpoints - (nextIteration - 1)` points)
      turns by pi/3 divided by its depth. */
  lemma InteriorChildAngle(bpoints: int, nextIteration: nat, bpoint: int)
    requires nextIteration >= 1
    requires 1 <= bpoint < bpoints - nextIteration
    ensures Angle(bpoints, nextIteration, bpoint) == (1.0 / 3.0) / nextIteration as real
  {
  }
}

=== FILE: growth.dfy ===
/** The recursive growth of a tree: `Tree.__spawn_branch` and `Tree.grow`.
    Branches are recorded per depth, in the depth-first order of the
    recursion; with roughness on, a parallel per-depth list holds, for every
    branch, the roughness polygon of each of its points. */
module Growth {
  import opened Basics
  import opened Draws
  import opened Geometry
  import opened Roughness

  /** A per-depth dictionary: depth to the list of entries recorded there. */
  type Layers<T> = map<nat, seq<T>>

  /** The entries recorded at depth `d`; none while the depth is absent. */
  function At<T>(m: Layers<T>, d: nat): seq<T>
  {
    if d in m then m[d] else []
  }

  /** Records a fresh, empty entry at depth `d`, creating the depth if needed. */
  function Open<T>(m: Layers<seq<T>>, d: nat): (r: Layers<seq<T>>)
    ensures d in r
    ensures At(r, d) == At(m, d) + [[]]
    ensures forall e :: e != d ==> At(r, e) == At(m, e)
    ensures r.Keys == m.Keys + {d}
  {
    m[d := At(m, d) + [[]]]
  }

  /** Appends `x` to the last entry recorded at depth `d`. */
  function Push<T>(m: Layers<seq<T>>, d: nat, x: T): (r: Layers<seq<T>>)
    requires |At(m, d)| > 0
    ensures Appended(m, r, d, x)
  {
    var l := At(m, d);
    m[d := l[..|l| - 1] + [Last(l) + [x]]]
  }

  /** `r` is `m` with `x` appended to the last entry at depth `d`, and
      nothing else changed. */
  ghost predicate Appended<T>(m: Layers<seq<T>>, r: Layers<seq<T>>, d: nat, x: T)
  {
    && |At(m, d)| > 0
    && |At(r, d)| == |At(m, d)|
    && At(r, d)[..|At(r, d)| - 1] == At(m, d)[..|At(m, d)| - 1]
    && Last(At(r, d)) == Last(At(m, d)) + [x]
    && (forall e: nat :: e != d ==> At(r, e) == At(m, e))
    && r.Keys == m.Keys
  }

  /** The branch starts at `p`. */
  predicate StartsAt(branch: seq<Point>, p: Point)
  {
    |branch| > 0 && branch[0] == p
  }

  /** The construction parameters of a tree. `roughness` is the truthiness
      of the source's roughness argument. */
  datatype Tree = Tree(iterations: int, bpoints: int, tallness: real, thickness: int,
                       rootHeight: real, roughness: bool)

  /** The direction vector a child at depth `n` takes from its parent's
      vector `v` when spawned at branch point `b`. */
  type Steer = (Point, nat, int) -> Point

  /** The roughness polygon built around a point from the draws starting at
      a cursor. */
  type Roughen = (Point, nat) -> seq<Point>

  /** What the recursion is handed: how children turn, how a step moves,
      how polygons are built, and the stream of random draws. `Grow` hands
      it `NextVector` over the caller's rotation, `Advance`, and
      `Roughness.Wrap` over the tree's thickness. The recursion relies only
      on a move of length zero staying put and, for the polygon invariant,
      on every built polygon fitting around its point. */
  datatype Env = Env(steer: Steer, move: Move, roughen: Roughen, rng: Source)

  /** The state the recursion threads through: the per-depth branches, the
      per-depth roughness twigs, and how many draws have been consumed. */
  datatype Growth = Growth(points: Layers<seq<Point>>, polygons: Layers<seq<seq<Point>>>, cursor: nat)

  /** The number of points of a branch at depth `d`: `range(bpoints - d)`,
      which is empty once the difference is not positive. */
  function Count(t: Tree, d: int): nat
  {
    Max(t.bpoints - d, 0)
  }

  /** The step distance of step `b` of a depth-`d` branch and the cursor
      after it: the root extension at depth-0 step 1 when it is positive
      (no draw), otherwise one draw, scaled into [0.5, 1) and zeroed at step 0. */
  function StepDistance(t: Tree, d: nat, b: nat, rng: Source, cursor: nat): (r: (real, nat))
    ensures b == 1 && d == 0 && t.rootHeight > 0.0 ==> r == (t.rootHeight, cursor)
    ensures !(b == 1 && d == 0 && t.rootHeight > 0.0) ==> r.1 == cursor + 1
    ensures !(b == 1 && d == 0 && t.rootHeight > 0.0) && b == 0 ==> r.0 == 0.0
    ensures !(b == 1 && d == 0 && t.rootHeight > 0.0) && b != 0 ==> 0.5 <= r.0 < 1.0
  {
    if b == 1 && d == 0 && t.rootHeight > 0.0 then (t.rootHeight, cursor)
    else
      var u := Uniform(0.5, 1.0, rng(cursor));
      (if b == 0 then 0.0 else u, cursor + 1)
  }

  /** Depths below `d` are the same in `g` and `r`. */
  ghost predicate SameBelow(g: Growth, r: Growth, d: nat)
  {
    forall e: nat :: e < d ==> At(r.points, e) == At(g.points, e) && At(r.polygons, e) == At(g.polygons, e)
  }

  /** Records a fresh branch at depth `d`, and a fresh twig when roughness
      is on. */
  function Opened(t: Tree, g: Growth, d: nat): Growth
  {
    g.(points := Open(g.points, d), polygons := if t.roughness then Open(g.polygons, d) else g.polygons)
  }

  /** Opening appends one empty branch at depth `d`, and one empty twig
      when roughness is on, keeping every earlier entry and every other
      depth, and consumes no draw. */
  lemma OpenedFresh(t: Tree, g: Growth, d: nat, r: Growth)
    requires r == Opened(t, g, d)
    ensures |At(r.points, d)| == |At(g.points, d)| + 1
    ensures At(r.points, d)[..|At(g.points, d)|] == At(g.points, d)
    ensures Last(At(r.points, d)) == []
    ensures forall e: nat :: e != d ==> At(r.points, e) == At(g.points, e)
    ensures t.roughness ==> |At(r.polygons, d)| == |At(g.polygons, d)| + 1 && Last(At(r.polygons, d)) == []
    ensures t.roughness ==> At(r.polygons, d)[..|At(g.polygons, d)|] == At(g.polygons, d)
    ensures t.roughness ==> forall e: nat :: e != d ==> At(r.polygons, e) == At(g.polygons, e)
    ensures !t.roughness ==> r.polygons == g.polygons
    ensures r.cursor == g.cursor
  {
  }

  /** One step's own work, before any child is spawned: the new point,
      `prev - dist * v`, appended to the current branch, and its roughness
      polygon appended to the current twig. Returns the new state and point. */
  function Place(t: Tree, env: Env, g: Growth, prev: Point, d: nat, v: Point, b: nat): (r: (Growth, Point))
    requires |At(g.points, d)| > 0
    requires t.roughness ==> |At(g.polygons, d)| > 0
    ensures Appended(g.points, r.0.points, d, r.1)
    ensures t.roughness ==> Appended(g.polygons, r.0.polygons, d, env.roughen(r.1, StepDistance(t, d, b, env.rng, g.cursor).1))
    ensures !t.roughness ==> r.0.polygons == g.polygons
  {
    var step := StepDistance(t, d, b, env.rng, g.cursor);
    var p := env.move(prev, step.0, v);
    var g2 := g.(points := Push(g.points, d, p), cursor := step.1);
    if t.roughness
    then (g2.(polygons := Push(g2.polygons, d, env.roughen(p, step.1)),
              cursor := step.1 + PolygonDraws), p)
    else (g2, p)
  }

  /** `__spawn_branch(pos, d, v)`: below the depth budget, records a new
      branch (and twig) at depth `d` and grows it from `pos`. */
  function Spawn(t: Tree, env: Env, g: Growth, pos: Point, d: nat, v: Point): (r: Growth)
    ensures SameBelow(g, r, d)
    decreases t.iterations - d, 2, 0
  {
    if d >= t.iterations then g
    else Steps(t, env, Opened(t, g, d), pos, d, v, 0)
  }

  /** The loop of `__spawn_branch` from step `b` on, growing the last branch
      recorded at depth `d` from the point `prev` along `-v`. */
  function Steps(t: Tree, env: Env, g: Growth, prev: Point, d: nat, v: Point, b: nat): (r: Growth)
    requires d < t.iterations
    requires |At(g.points, d)| > 0
    requires t.roughness ==> |At(g.polygons, d)| > 0
    ensures SameBelow(g, r, d)
    decreases t.iterations - d, 1, Count(t, d) - b
  {
    if b >= Count(t, d) then g
    else
      var placed := Place(t, env, g, prev, d, v, b);
      Steps(t, env, Fork(t, env, placed.0, placed.1, d, v, b), placed.1, d, v, b + 1)
  }

  /** The children spawned at step `b` from its point `p`: one at every step
      but the first, and a second, turned one step further, at the last. */
  function Fork(t: Tree, env: Env, g: Growth, p: Point, d: nat, v: Point, b: nat): (r: Growth)
    requires d < t.iterations
    ensures SameBelow(g, r, d + 1)
    decreases t.iterations - d, 0, 0
  {
    var g1 := if b > 0 then Spawn(t, env, g, p, d + 1, env.steer(v, d + 1, b)) else g;
    if b > 0 && b == Count(t, d) - 1
    then Spawn(t, env, g1, p, d + 1, env.steer(v, d + 1, b + 1))
    else g1
  }
}

=== FILE: hitbox.dfy ===
/** `Tree.__polysort` and `Tree.get_hitbox`: a few seed points of the grown
    tree, ordered around the vertical line through its position. */
module Hitboxes {
  import opened Basics
  import opened Exceptions
  import opened Draws
  import opened Geometry
  import opened Sorting
  import opened Roughness
  import opened Growth
  import opened Shape
  import opened Twigs
  import opened Planting

  datatype Side = Left | Right

  /** `p` lies strictly on `side` of the vertical line `x = c`. */
  predicate Beside(p: Point, c: real, side: Side)
  {
    match side
    case Left => p.x < c
    case Right => p.x > c
  }

  /** The points of `s` strictly on `side` of `x = c`, in their order. */
  function Pick(s: seq<Point>, c: real, side: Side): (r: seq<Point>)
    ensures forall p :: multiset(r)[p] == if Beside(p, c, side) then multiset(s)[p] else 0
    ensures forall i :: 0 <= i < |r| ==> Beside(r[i], c, side)
  {
    if |s| == 0 then []
    else
      assert s == [s[0]] + s[1..];
      (if Beside(s[0], c, side) then [s[0]] else []) + Pick(s[1..], c, side)
  }

  /** `__polysort(poly)` around `x = c`: the first point and every point
      left of the line, by y descending, then every point right of it, by
      y ascending. The first point is kept even on the line (and so counted
      once more when it is off the line); any other point on the line is
      dropped. */
  function Polysort(poly: seq<Point>, c: real): (r: seq<Point>)
    requires |poly| > 0
    ensures Arranged(poly[0], c, |Pick(poly, c, Left)| + 1, r)
  {
    var left := Sort([poly[0]] + Pick(poly, c, Left), Y, Descending);
    var right := Sort(Pick(poly, c, Right), Y, Ascending);
    Halves(poly[0], c, Pick(poly, c, Left), Pick(poly, c, Right), left, right);
    left + right
  }

  /** `r` runs, by y descending, through `first` and the points left of
      `x = c`, its first `k` entries, then, by y ascending, through points
      right of the line. */
  ghost predicate Arranged(first: Point, c: real, k: nat, r: seq<Point>)
  {
    && k <= |r|
    && Sorted(r[..k], Y, Descending)
    && Sorted(r[k..], Y, Ascending)
    && (forall i :: 0 <= i < k ==> r[i].x < c || r[i] == first)
    && (forall i :: k <= i < |r| ==> r[i].x > c)
  }

  lemma Halves(first: Point, c: real, lefts: seq<Point>, rights: seq<Point>, left: seq<Point>, right: seq<Point>)
    requires forall i :: 0 <= i < |lefts| ==> lefts[i].x < c
    requires forall i :: 0 <= i < |rights| ==> rights[i].x > c
    requires Sorted(left, Y, Descending) && multiset(left) == multiset([first] + lefts)
    requires Sorted(right, Y, Ascending) && multiset(right) == multiset(rights)
    ensures Arranged(first, c, |lefts| + 1, left + right)
  {
    var seeds := [first] + lefts;
    var r := left + right;
    assert |left| == |seeds| by {
      assert |multiset(left)| == |left| && |multiset(seeds)| == |seeds|;
    }
    forall i | 0 <= i < |left|
      ensures r[i].x < c || r[i] == first
    {
      assert r[i] == left[i];
      assert left[i] in multiset(seeds);
      assert left[i] in seeds;
    }
    forall i | |left| <= i < |r|
      ensures r[i].x > c
    {
      assert r[i] == right[i - |left|];
      assert right[i - |left|] in multiset(rights);
      assert right[i - |left|] in rights;
    }
    assert r[..|left|] == left && r[|left|..] == right;
  }

  /** The sorted polygon holds the first point once more than the polygon
      does, every other point off the line as often as the polygon does,
      and no other point on the line. */
  lemma PolysortCounts(poly: seq<Point>, c: real, p: Point)
    requires |poly| > 0
    ensures multiset(Polysort(poly, c))[p] ==
      (if p == poly[0] then 1 else 0) + (if p.x != c then multiset(poly)[p] else 0)
  {
    var left := Pick(poly, c, Left);
    var right := Pick(poly, c, Right);
    var r := Polysort(poly, c);
    assert r == Sort([poly[0]] + left, Y, Descending) + Sort(right, Y, Ascending);
    assert multiset(r) == multiset{poly[0]} + multiset(left) + multiset(right);
  }

  /** Every point of the sorted polygon comes from it, and it keeps exactly
      the first point and the points off the line. */
  lemma PolysortMembers(poly: seq<Point>, c: real, p: Point)
    requires |poly| > 0
    ensures p in Polysort(poly, c) <==> p == poly[0] || (p in poly && p.x != c)
  {
    PolysortCounts(poly, c, p);
    assert p in Polysort(poly, c) <==> multiset(Polysort(poly, c))[p] > 0;
    assert p in poly <==> multiset(poly)[p] > 0;
  }

  /** Branch `k` at depth `bd` can give its seeds: with roughness on, its
      twig exists and its last polygon has a vertex; otherwise the branch
      has a point. */
  predicate Seedable(t: Tree, s: TreeState, bd: nat, k: nat)
    requires bd in s.points && k < |s.points[bd]|
  {
    if t.roughness then
      bd in s.polygons && k < |s.polygons[bd]| && |s.polygons[bd][k]| > 0 && |Last(s.polygons[bd][k])| > 0
    else |s.points[bd][k]| > 0
  }

  /** The hitbox seeds of the branches at depth `bd` from index `br` on:
      the tip of each twig's last polygon with roughness on, otherwise each
      branch's first and last points. Missing depths and entries raise as
      the dictionary and list lookups do. */
  function SeedsFrom(t: Tree, s: TreeState, bd: nat, br: nat): (r: Result<seq<Point>>)
    requires bd in s.points
    ensures r.Failure? ==> r.fault == IndexError || (r.fault == KeyError && t.roughness && bd !in s.polygons)
    ensures r.Success? <==> forall k :: br <= k < |s.points[bd]| ==> Seedable(t, s, bd, k)
    ensures r.Success? && br <= |s.points[bd]| ==>
      |r.value| == (if t.roughness then 1 else 2) * (|s.points[bd]| - br)
    ensures !t.roughness && r.Success? && br <= |s.points[bd]| ==>
      forall k :: br <= k < |s.points[bd]| ==>
        Seedable(t, s, bd, k)
        && r.value[2 * (k - br)] == s.points[bd][k][0] && r.value[2 * (k - br) + 1] == Last(s.points[bd][k])
    ensures t.roughness && r.Success? && br <= |s.points[bd]| ==>
      forall k :: br <= k < |s.points[bd]| ==>
        Seedable(t, s, bd, k) && r.value[k - br] == Last(Last(s.polygons[bd][k]))
    decreases |s.points[bd]| - br
  {
    if br >= |s.points[bd]| then Success([])
    else
      var branch := s.points[bd][br];
      var here :=
        if t.roughness then
          if bd !in s.polygons then Failure(KeyError)
          else if br >= |s.polygons[bd]| || |s.polygons[bd][br]| == 0
                  || |Last(s.polygons[bd][br])| == 0 then Failure(IndexError)
          else Success([Last(Last(s.polygons[bd][br]))])
        else if |branch| == 0 then Failure(IndexError)
        else Success([branch[0], Last(branch)]);
      match here
      case Failure(f) =>
        assert !Seedable(t, s, bd, br);
        Failure(f)
      case Success(seeds) =>
        match SeedsFrom(t, s, bd, br + 1)
        case Failure(f) => Failure(f)
        case Success(rest) =>
          var out := seeds + rest;
          assert t.roughness ==>
            (&& |seeds| == 1 && out[0] == Last(Last(s.polygons[bd][br]))
             && forall k :: br < k < |s.points[bd]| && Seedable(t, s, bd, k) ==> out[k - br] == rest[k - br - 1]);
          assert !t.roughness ==>
            (&& |seeds| == 2 && out[0] == branch[0] && out[1] == Last(branch)
             && forall k :: br < k < |s.points[bd]| && Seedable(t, s, bd, k) ==>
                  out[2 * (k - br)] == rest[2 * (k - br - 1)] && out[2 * (k - br) + 1] == rest[2 * (k - br - 1) + 1]);
          Success(out)
  }

  /** The seeds of the branches recorded at depth `bd`; a key error when
      no branch was recorded there. */
  function Seeds(t: Tree, s: TreeState, bd: int): (r: Result<seq<Point>>)
    ensures bd < 0 || bd !in s.points ==> r == Failure(KeyError)
    ensures r.Success? ==>
      bd >= 0 && bd in s.points && |r.value| == (if t.roughness then 1 else 2) * |s.points[bd]|
  {
    if bd < 0 || bd !in s.points then Failure(KeyError)
    else SeedsFrom(t, s, bd, 0)
  }

  /** Assembles the hitbox from the depth whose branches seed it, given
      as a function of the state: the trunk's first and last points, then
      (once a second depth is recorded) that depth's seeds, sorted around
      the tree's position. */
  function HitboxAt(t: Tree, s: TreeState, boundary: int): (r: Result<seq<Point>>)
    ensures |s.points| == 0 ==> r == Success([])
    ensures r.Failure? ==> r.fault == KeyError || r.fault == IndexError || r.fault == TypeError
    ensures |s.points| > 0 && s.position.None? ==> r.Failure?
    ensures |s.points| > 1 && (boundary < 0 || boundary !in s.points) ==> r.Failure?
    ensures r.Success? && |s.points| > 0 ==>
      HasTrunk(s) && s.position.Some? && s.points[0][0][0] in r.value
      && (Last(s.points[0][0]).x != s.position.value.x ==> Last(s.points[0][0]) in r.value)
    ensures r.Success? && |s.points| > 0 ==> HitboxOf(t, s, boundary, r.value)
  {
    if |s.points| == 0 then Success([])
    else if 0 !in s.points then Failure(KeyError)
    else if |s.points[0]| == 0 || |s.points[0][0]| == 0 then Failure(IndexError)
    else
      var trunk := s.points[0][0];
      var more := if |s.points| > 1 then Seeds(t, s, boundary) else Success([]);
      match more
      case Failure(f) => Failure(f)
      case Success(extra) =>
        if s.position.None? then Failure(TypeError)
        else
          var poly := [trunk[0], Last(trunk)] + extra;
          assert forall p :: p in poly <==> p == trunk[0] || p == Last(trunk) || p in extra;
          PolysortHas(poly, s.position.value.x);
          assert Arranged(trunk[0], s.position.value.x, |Pick(poly, s.position.value.x, Left)| + 1,
                          Polysort(poly, s.position.value.x));
          Success(Polysort(poly, s.position.value.x))
  }

  /** Every point of the sorted polygon, as one statement: the first point
      and every point of the polygon off the line, and nothing else. */
  lemma PolysortHas(poly: seq<Point>, c: real)
    requires |poly| > 0
    ensures forall p :: p in Polysort(poly, c) <==> p == poly[0] || (p in poly && p.x != c)
  {
    forall p {
      PolysortMembers(poly, c, p);
    }
  }

  /** `hb` is the hitbox a grown tree gives when seeded from depth
      `boundary`: it holds the trunk's base, and every point off the
      vertical line through the position that is the trunk's top or, once
      a second depth is recorded, a seed of depth `boundary`, and nothing
      else; the base and the points left of the line come first, by y
      descending, then the points right of it, by y ascending. */
  ghost predicate HitboxOf(t: Tree, s: TreeState, boundary: int, hb: seq<Point>)
  {
    && HasTrunk(s) && s.position.Some?
    && (|s.points| > 1 ==> Seeds(t, s, boundary).Success?)
    && (forall p :: p in hb <==>
          p == s.points[0][0][0]
          || (p.x != s.position.value.x
              && (p == Last(s.points[0][0]) || (|s.points| > 1 && p in Seeds(t, s, boundary).value))))
    && exists k :: Arranged(s.points[0][0][0], s.position.value.x, k, hb)
  }

  /** The depth the corrected `get_hitbox` seeds from: `min(2, iterations - 1)`,
      or one depth shallower when that depth is missing. */
  function SeedDepth(t: Tree, s: TreeState): int
  {
    var bd := Min(2, t.iterations - 1);
    if bd in s.points || bd < 1 then bd else bd - 1
  }

  /** The trunk is recorded and has a point. */
  predicate HasTrunk(s: TreeState)
  {
    0 in s.points && |s.points[0]| > 0 && |s.points[0][0]| > 0
  }

  /** `get_hitbox()` as written: the seeds come from depth
      `min(2, iterations - 1)`. */
  function Hitbox(t: Tree, s: TreeState): (r: Result<seq<Point>>)
    ensures |s.points| == 0 ==> r == Success([])
    ensures |s.points| > 1 && Min(2, t.iterations - 1) !in s.points ==> r.Failure?
    ensures r.Success? && |s.points| > 0 ==> HasTrunk(s) && s.points[0][0][0] in r.value
    ensures r.Success? && |s.points| > 0 ==> HitboxOf(t, s, Min(2, t.iterations - 1), r.value)
  {
    HitboxAt(t, s, Min(2, t.iterations - 1))
  }

  /** `get_hitbox()` as evidently intended: the seeds come from depth
      `min(2, iterations - 1)`, or from one depth shallower when that depth
      is missing. */
  function HitboxDeepest(t: Tree, s: TreeState): (r: Result<seq<Point>>)
    ensures Hitbox(t, s).Success? ==> r == Hitbox(t, s)
    ensures |s.points| == 0 ==> r == Success([])
    ensures r.Success? && |s.points| > 0 ==> HasTrunk(s) && s.points[0][0][0] in r.value
    ensures r.Success? && |s.points| > 0 ==> HitboxOf(t, s, SeedDepth(t, s), r.value)
  {
    HitboxAt(t, s, SeedDepth(t, s))
  }

  /** Before `grow`, the hitbox is empty. */
  lemma HitboxBeforeGrowth(t: Tree)
    ensures Hitbox(t, Fresh) == Success([])
  {
  }

  /** A grown tree records depth `e` exactly when it has branches there. */
  lemma RecordedDepths(t: Tree, s: TreeState, origin: Point, e: nat)
    requires Shaped(t, s, origin)
    ensures e in s.points <==> Branches(t, e) > 0
  {
    assert Tidy(t, s.points, s.polygons, e);
    assert |At(s.points, e)| == Branches(t, e);
  }

  /** Once a depth has no branches, no deeper depth has any. */
  lemma {:induction false} BranchesVanish(t: Tree, e: nat, f: nat)
    requires Branches(t, e) == 0 && e <= f
    ensures Branches(t, f) == 0
    decreases f - e
  {
    if e < f {
      BranchesVanish(t, e, f - 1);
    }
  }

  lemma SetCardinality(k: set<nat>)
    requires 0 in k
    ensures |k| > 1 <==> exists e :: e in k && e != 0
  {
    if exists e :: e in k && e != 0 {
      var e :| e in k && e != 0;
      assert k == (k - {0, e}) + {0, e};
    } else {
      assert k == {0};
    }
  }

  /** Which depths a grown tree records at all: the trunk's, below a
      positive budget, and depth 1 exactly when the trunk forks. */
  lemma GrownDepths(t: Tree, s: TreeState, origin: Point)
    requires Shaped(t, s, origin)
    ensures |s.points| == 0 <==> t.iterations <= 0
    ensures t.iterations > 0 ==> (|s.points| > 1 <==> t.iterations >= 2 && t.bpoints >= 2)
    ensures t.iterations >= 2 && t.bpoints >= 2 ==> 1 in s.points
    ensures t.iterations >= 3 && t.bpoints >= 2 ==> (2 in s.points <==> t.bpoints >= 3)
  {
    RecordedDepths(t, s, origin, 0);
    RecordedDepths(t, s, origin, 1);
    RecordedDepths(t, s, origin, 2);
    if t.iterations <= 0 {
      forall e: nat
        ensures e !in s.points
      {
        RecordedDepths(t, s, origin, e);
        BranchesVanish(t, 0, e);
      }
      assert s.points.Keys == {};
    } else {
      SetCardinality(s.points.Keys);
      if !(t.iterations >= 2 && t.bpoints >= 2) {
        forall e: nat | e != 0
          ensures e !in s.points
        {
          RecordedDepths(t, s, origin, e);
          BranchesVanish(t, 1, e);
        }
      }
    }
  }

  /** Every branch recorded at a depth has points there. */
  lemma RecordedHavePoints(t: Tree, s: TreeState, origin: Point, e: nat)
    requires Shaped(t, s, origin)
    requires t.bpoints >= 1
    requires e in s.points
    ensures Count(t, e) >= 1
  {
    RecordedDepths(t, s, origin, e);
    if e > 0 {
      assert Branches(t, e) == Branches(t, e - 1) * Fan(t, e - 1);
    }
  }

  /** The seeds of a recorded depth whose branches have points are all
      found: every branch has a first and last point, and with roughness on
      every branch has a twig whose last polygon has a last vertex. */
  lemma {:induction false} SeedsFound(t: Tree, s: TreeState, origin: Point, bd: nat, br: nat)
    requires Shaped(t, s, origin)
    requires bd in s.points && Count(t, bd) >= 1
    ensures SeedsFrom(t, s, bd, br).Success?
    decreases |s.points[bd]| - br
  {
    if br < |s.points[bd]| {
      assert |s.points[bd][br]| == Count(t, bd) by {
        assert Finished(t, s.points, bd, 0);
        assert At(s.points, bd) == s.points[bd];
      }
      if t.roughness {
        assert Tidy(t, s.points, s.polygons, bd);
        assert At(s.polygons, bd) == s.polygons[bd];
        assert Clad(t, s.points[bd][br], s.polygons[bd][br]);
        assert Rough(s.points[bd][br][|s.points[bd][br]| - 1], Last(s.polygons[bd][br]), Span(t.thickness));
      }
      SeedsFound(t, s, origin, bd, br + 1);
    }
  }

  /** A grown tree with a trunk records its trunk first, starting at the
      origin. */
  lemma TrunkFound(t: Tree, s: TreeState, origin: Point)
    requires Shaped(t, s, origin)
    requires t.iterations >= 1 && t.bpoints >= 1
    ensures 0 in s.points && |s.points[0]| > 0
    ensures |s.points[0][0]| == Count(t, 0) && s.points[0][0][0] == origin
  {
    RecordedDepths(t, s, origin, 0);
    assert |s.points[0]| == 1 && At(s.points, 0) == s.points[0];
    assert Finished(t, s.points, 0, 0);
  }

  /** Once the trunk is there and the seeding depth yields its seeds, the
      hitbox is found and holds the trunk's first point. */
  lemma HitboxAtFound(t: Tree, s: TreeState, origin: Point, bd: int)
    requires 0 in s.points && |s.points[0]| > 0 && |s.points[0][0]| > 0
    requires s.points[0][0][0] == origin && s.position == Some(origin)
    requires |s.points| > 1 ==> Seeds(t, s, bd).Success?
    ensures HitboxAt(t, s, bd).Success? && origin in HitboxAt(t, s, bd).value
  {
    var trunk := s.points[0][0];
    var more := if |s.points| > 1 then Seeds(t, s, bd) else Success([]);
    PolysortMembers([trunk[0], Last(trunk)] + more.value, origin.x, origin);
  }

  /** On a grown tree with a trunk, the hitbox seeded from a recorded depth
      (or needing no seeds) is found and holds the origin. */
  lemma GrownHitboxAt(t: Tree, s: TreeState, origin: Point, bd: int)
    requires Shaped(t, s, origin)
    requires t.iterations >= 1 && t.bpoints >= 1
    requires |s.points| > 1 ==> bd >= 0 && bd in s.points
    ensures HitboxAt(t, s, bd).Success? && origin in HitboxAt(t, s, bd).value
  {
    TrunkFound(t, s, origin);
    if |s.points| > 1 {
      RecordedHavePoints(t, s, origin, bd);
      SeedsFound(t, s, origin, bd, 0);
    }
    HitboxAtFound(t, s, origin, bd);
  }

  /** `get_hitbox()` on a freshly grown tree, case by case: empty without
      a depth budget; an index error on the empty trunk of a negative
      branch-point count; a key error when the trunk of a two-point tree
      of three or more depths forks only into childless branches, so that
      depth 2 is never recorded; otherwise a hitbox holding the origin. */
  lemma GrownHitbox(t: Tree, turn: Turn, rng: Source, origin: Point)
    requires t.bpoints != 0
    ensures var h := Hitbox(t, Grow(t, Fresh, turn, rng, origin).value);
      && (t.iterations <= 0 ==> h == Success([]))
      && (t.iterations >= 1 && t.bpoints < 0 ==> h == Failure(IndexError))
      && (t.iterations >= 3 && t.bpoints == 2 ==> h == Failure(KeyError))
      && (t.iterations >= 1 && t.bpoints >= 1 && !(t.iterations >= 3 && t.bpoints == 2) ==>
            h.Success? && origin in h.value)
  {
    GrowShaped(t, turn, rng, origin);
    ShapedHitbox(t, Grow(t, Fresh, turn, rng, origin).value, origin);
  }

  lemma ShapedHitbox(t: Tree, s: TreeState, origin: Point)
    requires Shaped(t, s, origin)
    ensures var h := Hitbox(t, s);
      && (t.iterations <= 0 ==> h == Success([]))
      && (t.iterations >= 1 && t.bpoints < 0 ==> h == Failure(IndexError))
      && (t.iterations >= 3 && t.bpoints == 2 ==> h == Failure(KeyError))
      && (t.iterations >= 1 && t.bpoints >= 1 && !(t.iterations >= 3 && t.bpoints == 2) ==>
            h.Success? && origin in h.value)
  {
    GrownDepths(t, s, origin);
    if t.iterations >= 1 {
      if t.bpoints >= 1 {
        TrunkFound(t, s, origin);
        if !(t.iterations >= 3 && t.bpoints == 2) {
          GrownHitboxAt(t, s, origin, Min(2, t.iterations - 1));
        }
      } else {
        RecordedDepths(t, s, origin, 0);
        assert |s.points[0]| == 1 && At(s.points, 0) == s.points[0];
        assert |s.points[0][0]| == Count(t, 0) by {
          assert Finished(t, s.points, 0, 0);
        }
      }
    }
  }

  /** A two-point tree of three depths: `get_hitbox()` raises a key error. */
  lemma HitboxKeyError(turn: Turn, rng: Source, origin: Point)
    ensures var t := Tree(3, 2, 10.0, 5, 0.0, true);
      Hitbox(t, Grow(t, Fresh, turn, rng, origin).value) == Failure(KeyError)
  {
    GrownHitbox(Tree(3, 2, 10.0, 5, 0.0, true), turn, rng, origin);
  }

  /** With the corrected seeding depth, every
      grown tree with a trunk has a hitbox, and it holds the origin. */
  lemma GrownHitboxDeepest(t: Tree, turn: Turn, rng: Source, origin: Point)
    requires t.bpoints >= 1
    ensures var h := HitboxDeepest(t, Grow(t, Fresh, turn, rng, origin).value);
      && (t.iterations <= 0 ==> h == Success([]))
      && (t.iterations >= 1 ==> h.Success? && origin in h.value)
  {
    GrowShaped(t, turn, rng, origin);
    ShapedHitboxDeepest(t, Grow(t, Fresh, turn, rng, origin).value, origin);
  }

  lemma ShapedHitboxDeepest(t: Tree, s: TreeState, origin: Point)
    requires Shaped(t, s, origin)
    requires t.bpoints >= 1
    ensures var h := HitboxDeepest(t, s);
      && (t.iterations <= 0 ==> h == Success([]))
      && (t.iterations >= 1 ==> h.Success? && origin in h.value)
  {
    var bd := Min(2, t.iterations - 1);
    var deepest := SeedDepth(t, s);
    assert HitboxDeepest(t, s) == HitboxAt(t, s, deepest);
    if t.iterations >= 1 {
      assert |s.points| > 1 ==> deepest >= 0 && deepest in s.points by {
        GrownDepths(t, s, origin);
        DeepestRecorded(s.points, bd);
      }
      GrownHitboxAt(t, s, origin, deepest);
    } else {
      assert |s.points| == 0 by {
        GrownDepths(t, s, origin);
      }
    }
  }

  lemma DeepestRecorded(points: Layers<seq<Point>>, bd: int)
    requires 1 <= bd <= 2 || |points| <= 1
    requires |points| > 1 ==> 1 in points
    ensures var deepest := if bd in points || bd < 1 then bd else bd - 1;
      |points| > 1 ==> deepest >= 0 && deepest in points
  {
  }
}

=== FILE: planting.dfy ===
/** `Tree.grow`: the first step length, the trunk's direction, and the one
    spawn at depth 0 that grows the whole tree from the given position;
    and the shape of the tree it leaves behind. */
module Planting {
  import opened Basics
  import opened Exceptions
  import opened Draws
  import opened Geometry
  import opened Roughness
  import opened Growth
  import opened Shape
  import opened Twigs

  /** What a tree instance holds between calls: the position it was grown
      at (none before `grow`) and its two per-depth dictionaries. */
  datatype TreeState = TreeState(position: Option<Point>, points: Layers<seq<Point>>,
                                 polygons: Layers<seq<seq<Point>>>)

  /** A constructed tree that has not grown yet. */
  const Fresh: TreeState := TreeState(None, map[], map[])

  function Distance(a: real, b: real): real
  {
    if a <= b then b - a else a - b
  }

  /** Python 3's `round` on a number: the nearest integer, ties to the even
      one. */
  function RoundHalfEven(x: real): (r: int)
    ensures Distance(r as real, x) <= 0.5
    ensures Distance(r as real, x) == 0.5 ==> r % 2 == 0
  {
    var f := x.Floor;
    var frac := x - f as real;
    if frac < 0.5 then f
    else if frac > 0.5 then f + 1
    else if f % 2 == 0 then f
    else f + 1
  }

  /** The rounding contract singles out one integer: any integer as close,
      and even on a tie, is the rounded value. */
  lemma RoundUnique(x: real, k: int)
    requires Distance(k as real, x) <= 0.5
    requires Distance(k as real, x) == 0.5 ==> k % 2 == 0
    ensures k == RoundHalfEven(x)
  {
    var r := RoundHalfEven(x);
    assert k == r || k as real <= r as real - 1.0 || k as real >= r as real + 1.0;
  }

  /** No integer is nearer to `x` than its rounded value. */
  lemma RoundNearest(x: real, k: int)
    ensures Distance(RoundHalfEven(x) as real, x) <= Distance(k as real, x)
  {
    var r := RoundHalfEven(x);
    if k < r {
      assert k as real <= r as real - 1.0;
    } else if k > r {
      assert k as real >= r as real + 1.0;
    }
  }

  /** What `grow` hands the recursion: children turned by `NextVector`
      over the caller's rotation and the tree's branch-point budget, steps
      made by `Advance`, polygons built by `Wrap` around each point with
      the tree's span, and the caller's random draws. */
  function Environment(t: Tree, turn: Turn, rng: Source): (env: Env)
    ensures StaysPut(env.move)
    ensures Fitting(t, env)
    ensures env.rng == rng
    ensures forall v, n, b :: env.steer(v, n, b) == NextVector(turn, t.bpoints, n, v, b)
    ensures forall p, x, w :: env.move(p, x, w) == Advance(p, x, w)
  {
    var env := Env((v: Point, n: nat, b: int) => NextVector(turn, t.bpoints, n, v, b),
                   Advance,
                   (p: Point, c: nat) => Wrap(p, Span(t.thickness), rng, c),
                   rng);
    AdvanceStaysPut();
    WrapFits(t, env);
    env
  }

  /** The trunk's direction: `(0, dist)` passed through the depth-0
      rotation, which turns by no angle. */
  function TrunkVector(t: Tree, turn: Turn, dist: int): (v: Point)
    ensures v == turn(Point(0.0, dist as real), 0.0)
  {
    NextVector(turn, t.bpoints, 0, Point(0.0, dist as real), 0)
  }

  /** `grow(position)` on a tree in state `s`: the step length
      `round(tallness / bpoints)` fails with a zero division, before the
      position is stored, when `bpoints` is 0; otherwise the position is
      stored and the trunk is spawned from it at depth 0, adding to what
      `s` already records. */
  function Grow(t: Tree, s: TreeState, turn: Turn, rng: Source, origin: Point): (r: Result<TreeState>)
    ensures r.Failure? <==> t.bpoints == 0
    ensures r.Failure? ==> r.fault == ZeroDivision
    ensures r.Success? ==> r.value.position == Some(origin)
  {
    if t.bpoints == 0 then Failure(ZeroDivision)
    else
      var dist := RoundHalfEven(t.tallness / t.bpoints as real);
      var env := Environment(t, turn, rng);
      var g := Spawn(t, env, Growth(s.points, s.polygons, 0), origin, 0, TrunkVector(t, turn, dist));
      Success(TreeState(Some(origin), g.points, g.polygons))
  }

  /** The shape of a tree grown once at `origin`: it records
      `Branches(t, e)` finished branches of `Count(t, e)` points at every
      depth `e`, its records are tidy, and its trunk starts at `origin`. */
  ghost predicate Shaped(t: Tree, s: TreeState, origin: Point)
  {
    && s.position == Some(origin)
    && (forall e: nat :: |At(s.points, e)| == Branches(t, e))
    && (forall e: nat :: Finished(t, s.points, e, 0))
    && (forall e: nat :: Tidy(t, s.points, s.polygons, e))
    && (t.iterations > 0 && Count(t, 0) > 0 ==>
          |At(s.points, 0)| > 0 && StartsAt(At(s.points, 0)[0], origin))
  }

  /** Growing a fresh tree leaves it shaped. */
  lemma GrowShaped(t: Tree, turn: Turn, rng: Source, origin: Point)
    requires t.bpoints != 0
    ensures Grow(t, Fresh, turn, rng, origin).Success?
    ensures Shaped(t, Grow(t, Fresh, turn, rng, origin).value, origin)
  {
    var dist := RoundHalfEven(t.tallness / t.bpoints as real);
    var env := Environment(t, turn, rng);
    var v := TrunkVector(t, turn, dist);
    var g0 := Growth(map[], map[], 0);
    var g := Spawn(t, env, g0, origin, 0, v);
    var s := Grow(t, Fresh, turn, rng, origin).value;
    assert s.points == g.points && s.polygons == g.polygons;
    forall e: nat
      ensures |At(s.points, e)| == Branches(t, e)
      ensures Finished(t, s.points, e, 0)
      ensures Tidy(t, s.points, s.polygons, e)
    {
      SpawnCounts(t, env, g0, origin, 0, v, e);
      RecordedLevels(t, e);
      SpawnLayout(t, env, g0, origin, 0, v, e);
      SpawnTidy(t, env, g0, origin, 0, v, e);
    }
    if t.iterations > 0 {
      SpawnBranch(t, env, g0, origin, 0, v);
    }
  }
}

=== FILE: roughness.dfy ===
/** The irregular polygon wrapped around every branch point when roughness is
    on: thirteen random offsets dealt round-robin over the four quadrants
    around the point, each quadrant sorted by x, quadrants 1 to 4 joined. */
module Roughness {
  import opened Basics
  import opened Draws
  import opened Geometry
  import opened Sorting

  /** The number of draws one polygon consumes: an x and a y offset for each
      of its thirteen vertices. */
  const PolygonDraws: nat := 26

  /** Half-width of the box the offsets are drawn from. */
  function Span(thickness: int): (span: int)
    ensures span >= 1
    ensures span >= thickness - 2
    ensures span == 1 || span == thickness - 2
  {
    Max(thickness - 2, 1)
  }

  /** The quadrant that the loop counter `vertix` (4 to 16) deals its vertex to. */
  function QuadrantOf(vertix: int): int
  {
    4 - vertix % 4
  }

  /** The offset of `p` from `center` obeys the sign constraints of quadrant
      `q` within a box of half-width `span`. */
  predicate InQuadrant(center: Point, p: Point, q: int, span: int)
  {
    var dx := p.x - center.x;
    var dy := p.y - center.y;
    if q == 1 then 0.0 <= dx <= span as real && 0.0 <= dy <= span as real
    else if q == 2 then -(span as real) <= dx <= -1.0 && 0.0 <= dy <= span as real
    else if q == 3 then -(span as real) <= dx <= -1.0 && -(span as real) <= dy <= -1.0
    else 0.0 <= dx <= span as real && -(span as real) <= dy <= -1.0
  }

  /** The random shift drawn for a vertex of quadrant `q` from the unit
      values `ux` (x first) and `uy`. */
  function Offset(q: int, span: int, ux: Unit, uy: Unit): (shift: (int, int))
    requires span >= 1
    ensures InQuadrant(Point(0.0, 0.0), Point(shift.0 as real, shift.1 as real), q, span)
  {
    if q == 1 then (RandInt(0, span, ux), RandInt(0, span, uy))
    else if q == 2 then (RandInt(-span, -1, ux), RandInt(0, span, uy))
    else if q == 3 then (RandInt(-span, -1, ux), RandInt(-span, -1, uy))
    else (RandInt(0, span, ux), RandInt(-span, -1, uy))
  }

  /** The vertex generated at loop counter `vertix`, from the draws at
      `cursor + 2 * (vertix - 4)` and the one after it. */
  function Vertex(center: Point, span: int, rng: Source, cursor: nat, vertix: int): (p: Point)
    requires span >= 1
    requires 4 <= vertix
    ensures InQuadrant(center, p, QuadrantOf(vertix), span)
  {
    var k := cursor + 2 * (vertix - 4);
    var shift := Offset(QuadrantOf(vertix), span, rng(k), rng(k + 1));
    Point(center.x + shift.0 as real, center.y + shift.1 as real)
  }

  /** The thirteen vertices generated for loop counters 4 to 16, in order:
      the vertex at index k belongs to counter k + 4. */
  function Generated(center: Point, span: int, rng: Source, cursor: nat): (vs: seq<Point>)
    requires span >= 1
    ensures |vs| == 13
    ensures forall k :: 0 <= k < 13 ==> InQuadrant(center, vs[k], QuadrantOf(k + 4), span)
  {
    seq(13, k requires 0 <= k < 13 => Vertex(center, span, rng, cursor, k + 4))
  }

  /** The four per-quadrant vertex lists. */
  datatype Quadrants = Quadrants(q1: seq<Point>, q2: seq<Point>, q3: seq<Point>, q4: seq<Point>)
  {
    /** The list of quadrant `q` (quadrant 4 for any other number). */
    function Get(q: int): seq<Point>
    {
      if q == 1 then q1 else if q == 2 then q2 else if q == 3 then q3 else q4
    }

    function Add(q: int, p: Point): Quadrants
    {
      if q == 1 then this.(q1 := q1 + [p])
      else if q == 2 then this.(q2 := q2 + [p])
      else if q == 3 then this.(q3 := q3 + [p])
      else this.(q4 := q4 + [p])
    }

    /** All four lists' vertices together. */
    function Bag(): multiset<Point>
    {
      multiset(q1) + multiset(q2) + multiset(q3) + multiset(q4)
    }
  }

  /** The dealing loop from counter `vertix` on: the vertex of each counter
      is appended to its quadrant's list. */
  function Scatter(vs: seq<Point>, vertix: int, qs: Quadrants): Quadrants
    requires |vs| == 13
    requires 4 <= vertix <= 17
    decreases 17 - vertix
  {
    if vertix == 17 then qs
    else Scatter(vs, vertix + 1, qs.Add(QuadrantOf(vertix), vs[vertix - 4]))
  }

  /** How many of the loop counters `vertix` to 16 deal to quadrant `q`. */
  function Dealt(q: int, vertix: int): nat
    decreases 17 - vertix
  {
    if vertix >= 17 then 0
    else (if QuadrantOf(vertix) == q then 1 else 0) + Dealt(q, vertix + 1)
  }

  /** Counters 4 to 16 deal three vertices to each of quadrants 1 to 3 and
      four to quadrant 4. */
  lemma DealtPerQuadrant()
    ensures Dealt(1, 4) == 3 && Dealt(2, 4) == 3 && Dealt(3, 4) == 3 && Dealt(4, 4) == 4
  {
  }

  /** The loop deals `Dealt(q, vertix)` more vertices to quadrant `q`. */
  lemma {:induction false} ScatterCounts(vs: seq<Point>, vertix: int, qs: Quadrants, q: int)
    requires |vs| == 13
    requires 4 <= vertix <= 17
    requires 1 <= q <= 4
    ensures |Scatter(vs, vertix, qs).Get(q)| == |qs.Get(q)| + Dealt(q, vertix)
    decreases 17 - vertix
  {
    if vertix < 17 {
      assert 1 <= QuadrantOf(vertix) <= 4;
      ScatterCounts(vs, vertix + 1, qs.Add(QuadrantOf(vertix), vs[vertix - 4]), q);
    }
  }

  /** Every vertex the loop deals to quadrant `q` lies in that quadrant,
      given that each vertex lies in the quadrant of its counter. */
  lemma {:induction false} ScatterInQuadrant(center: Point, span: int, vs: seq<Point>, vertix: int, qs: Quadrants, q: int)
    requires |vs| == 13
    requires 4 <= vertix <= 17
    requires 1 <= q <= 4
    requires forall k :: 0 <= k < 13 ==> InQuadrant(center, vs[k], QuadrantOf(k + 4), span)
    requires forall p :: p in qs.Get(q) ==> InQuadrant(center, p, q, span)
    ensures forall p :: p in Scatter(vs, vertix, qs).Get(q) ==> InQuadrant(center, p, q, span)
    decreases 17 - vertix
  {
    if vertix < 17 {
      assert 1 <= QuadrantOf(vertix) <= 4;
      assert InQuadrant(center, vs[vertix - 4], QuadrantOf(vertix), span);
      ScatterInQuadrant(center, span, vs, vertix + 1, qs.Add(QuadrantOf(vertix), vs[vertix - 4]), q);
    }
  }

  /** Together the quadrant lists gain exactly the vertices of counters
      `vertix` to 16. */
  lemma {:induction false} ScatterPermutes(vs: seq<Point>, vertix: int, qs: Quadrants)
    requires |vs| == 13
    requires 4 <= vertix <= 17
    ensures Scatter(vs, vertix, qs).Bag() == qs.Bag() + multiset(vs[vertix - 4..])
    decreases 17 - vertix
  {
    if vertix < 17 {
      var p := vs[vertix - 4];
      var next := qs.Add(QuadrantOf(vertix), p);
      ScatterPermutes(vs, vertix + 1, next);
      AddAll(qs, QuadrantOf(vertix), p);
      assert vs[vertix - 4..] == [p] + vs[vertix + 1 - 4..];
    }
  }

  lemma AddAll(qs: Quadrants, q: int, p: Point)
    ensures qs.Add(q, p).Bag() == qs.Bag() + multiset{p}
  {
  }

  /** The loop's quadrant lists for the polygon whose draws start at `cursor`. */
  function Dealing(center: Point, span: int, rng: Source, cursor: nat): Quadrants
    requires span >= 1
  {
    Scatter(Generated(center, span, rng, cursor), 4, Quadrants([], [], [], []))
  }

  /** `__wrap_in_polygon`: the roughness polygon around `center`, drawn from
      the 26 draws starting at `cursor`. The point's depth and vector, which
      the source passes in, play no part. */
  function Wrap(center: Point, span: int, rng: Source, cursor: nat): (r: seq<Point>)
    requires span >= 1
    ensures |r| == 13
  {
    var qs := Dealing(center, span, rng, cursor);
    DealingShape(center, span, rng, cursor);
    Sort(qs.q1, X, Descending) + Sort(qs.q2, X, Descending) + Sort(qs.q3, X, Ascending) + Sort(qs.q4, X, Ascending)
  }

  /** The loop deals three vertices to each of quadrants 1 to 3 and four to
      quadrant 4, each inside its quadrant, thirteen generated vertices in all. */
  lemma DealingShape(center: Point, span: int, rng: Source, cursor: nat)
    requires span >= 1
    ensures var qs := Dealing(center, span, rng, cursor);
      |qs.q1| == 3 && |qs.q2| == 3 && |qs.q3| == 3 && |qs.q4| == 4
    ensures var qs := Dealing(center, span, rng, cursor);
      && (forall p :: p in qs.q1 ==> InQuadrant(center, p, 1, span))
      && (forall p :: p in qs.q2 ==> InQuadrant(center, p, 2, span))
      && (forall p :: p in qs.q3 ==> InQuadrant(center, p, 3, span))
      && (forall p :: p in qs.q4 ==> InQuadrant(center, p, 4, span))
    ensures Dealing(center, span, rng, cursor).Bag() == multiset(Generated(center, span, rng, cursor))
  {
    var vs := Generated(center, span, rng, cursor);
    var empty := Quadrants([], [], [], []);
    DealtPerQuadrant();
    ScatterCounts(vs, 4, empty, 1);
    ScatterCounts(vs, 4, empty, 2);
    ScatterCounts(vs, 4, empty, 3);
    ScatterCounts(vs, 4, empty, 4);
    ScatterInQuadrant(center, span, vs, 4, empty, 1);
    ScatterInQuadrant(center, span, vs, 4, empty, 2);
    ScatterInQuadrant(center, span, vs, 4, empty, 3);
    ScatterInQuadrant(center, span, vs, 4, empty, 4);
    ScatterPermutes(vs, 4, empty);
    assert vs[0..] == vs;
  }

  /** The polygon is the four sorted quadrant lists, one after the other. */
  lemma WrapPieces(center: Point, span: int, rng: Source, cursor: nat)
    requires span >= 1
    ensures var qs := Dealing(center, span, rng, cursor);
      var r := Wrap(center, span, rng, cursor);
      && r[..3] == Sort(qs.q1, X, Descending)
      && r[3..6] == Sort(qs.q2, X, Descending)
      && r[6..9] == Sort(qs.q3, X, Ascending)
      && r[9..] == Sort(qs.q4, X, Ascending)
  {
    var qs := Dealing(center, span, rng, cursor);
    DealingShape(center, span, rng, cursor);
    var s1 := Sort(qs.q1, X, Descending);
    var s2 := Sort(qs.q2, X, Descending);
    var s3 := Sort(qs.q3, X, Ascending);
    var s4 := Sort(qs.q4, X, Ascending);
    assert Wrap(center, span, rng, cursor) == s1 + s2 + s3 + s4;
    Split(s1, s2, s3, s4);
  }

  lemma Split(a: seq<Point>, b: seq<Point>, c: seq<Point>, d: seq<Point>)
    requires |a| == 3 && |b| == 3 && |c| == 3
    ensures var r := a + b + c + d;
      r[..3] == a && r[3..6] == b && r[6..9] == c && r[9..] == d
  {
  }

  /** A roughness polygon around `center`: thirteen vertices, three in each
      of quadrants 1 to 3 and four in quadrant 4, in that order. */
  predicate Rough(center: Point, poly: seq<Point>, span: int)
  {
    && |poly| == 13
    && (forall i :: 0 <= i < 3 ==> InQuadrant(center, poly[i], 1, span))
    && (forall i :: 3 <= i < 6 ==> InQuadrant(center, poly[i], 2, span))
    && (forall i :: 6 <= i < 9 ==> InQuadrant(center, poly[i], 3, span))
    && (forall i :: 9 <= i < 13 ==> InQuadrant(center, poly[i], 4, span))
  }

  /** The polygon holds three vertices of each of quadrants 1 to 3 and four
      of quadrant 4, in that order. */
  lemma WrapQuadrants(center: Point, span: int, rng: Source, cursor: nat)
    requires span >= 1
    ensures Rough(center, Wrap(center, span, rng, cursor), span)
  {
    DealingShape(center, span, rng, cursor);
    WrapPieces(center, span, rng, cursor);
    PiecesInQuadrants(center, span, Dealing(center, span, rng, cursor), Wrap(center, span, rng, cursor));
  }

  lemma PiecesInQuadrants(center: Point, span: int, qs: Quadrants, r: seq<Point>)
    requires |r| == 13
    requires multiset(r[..3]) == multiset(qs.q1) && multiset(r[3..6]) == multiset(qs.q2)
    requires multiset(r[6..9]) == multiset(qs.q3) && multiset(r[9..]) == multiset(qs.q4)
    requires forall p :: p in qs.q1 ==> InQuadrant(center, p, 1, span)
    requires forall p :: p in qs.q2 ==> InQuadrant(center, p, 2, span)
    requires forall p :: p in qs.q3 ==> InQuadrant(center, p, 3, span)
    requires forall p :: p in qs.q4 ==> InQuadrant(center, p, 4, span)
    ensures forall i :: 0 <= i < 3 ==> InQuadrant(center, r[i], 1, span)
    ensures forall i :: 3 <= i < 6 ==> InQuadrant(center, r[i], 2, span)
    ensures forall i :: 6 <= i < 9 ==> InQuadrant(center, r[i], 3, span)
    ensures forall i :: 9 <= i < 13 ==> InQuadrant(center, r[i], 4, span)
  {
    assert r[0..3] == r[..3] && r[9..13] == r[9..];
    SliceInQuadrant(center, r, 0, 3, qs.q1, 1, span);
    SliceInQuadrant(center, r, 3, 6, qs.q2, 2, span);
    SliceInQuadrant(center, r, 6, 9, qs.q3, 3, span);
    SliceInQuadrant(center, r, 9, 13, qs.q4, 4, span);
  }

  /** A slice that rearranges a quadrant's vertices lies in that quadrant. */
  lemma SliceInQuadrant(center: Point, r: seq<Point>, lo: int, hi: int, s: seq<Point>, q: int, span: int)
    requires 0 <= lo <= hi <= |r|
    requires multiset(r[lo..hi]) == multiset(s)
    requires forall p :: p in s ==> InQuadrant(center, p, q, span)
    ensures forall i :: lo <= i < hi ==> InQuadrant(center, r[i], q, span)
  {
    forall i | lo <= i < hi
      ensures InQuadrant(center, r[i], q, span)
    {
      assert r[i] == r[lo..hi][i - lo];
      assert r[i] in multiset(r[lo..hi]);
    }
  }

  /** Quadrants 1 and 2 run by non-increasing x, quadrants 3 and 4 by
      non-decreasing x. */
  lemma WrapOrdering(center: Point, span: int, rng: Source, cursor: nat)
    requires span >= 1
    ensures var r := Wrap(center, span, rng, cursor);
      && Sorted(r[..3], X, Descending) && Sorted(r[3..6], X, Descending)
      && Sorted(r[6..9], X, Ascending) && Sorted(r[9..], X, Ascending)
  {
    WrapPieces(center, span, rng, cursor);
  }

  /** The polygon's vertices are exactly the generated ones, rearranged. */
  lemma WrapPermutes(center: Point, span: int, rng: Source, cursor: nat)
    requires span >= 1
    ensures multiset(Wrap(center, span, rng, cursor)) == multiset(Generated(center, span, rng, cursor))
  {
    var r := Wrap(center, span, rng, cursor);
    DealingShape(center, span, rng, cursor);
    WrapPieces(center, span, rng, cursor);
    assert r == r[..3] + r[3..6] + r[6..9] + r[9..];
    assert multiset(r) == multiset(r[..3]) + multiset(r[3..6]) + multiset(r[6..9]) + multiset(r[9..]);
  }

  /** Every vertex of the roughness polygon lies within `span` of its center
      on both axes. */
  lemma WrapWithinSpan(center: Point, span: int, rng: Source, cursor: nat)
    requires span >= 1
    ensures forall p :: p in Wrap(center, span, rng, cursor) ==>
      && center.x - span as real <= p.x <= center.x + span as real
      && center.y - span as real <= p.y <= center.y + span as real
  {
    var r := Wrap(center, span, rng, cursor);
    WrapQuadrants(center, span, rng, cursor);
    forall p | p in r
      ensures center.x - span as real <= p.x <= center.x + span as real
      ensures center.y - span as real <= p.y <= center.y + span as real
    {
      var i :| 0 <= i < |r| && r[i] == p;
    }
  }
}

=== FILE: shape.dfy ===
/** How many branches the growth records at each depth, and how long they
    are. */
module Shape {
  import opened Basics
  import opened Geometry
  import opened Growth

  /** The children a step forks: none at step 0, one at every later step,
      and one more at the last step of a branch of `n` points. */
  function Forks(n: nat, b: nat): nat
  {
    (if b > 0 then 1 else 0) + (if b > 0 && b == n - 1 then 1 else 0)
  }

  /** The children forked by steps `b` to `n - 1` of a branch of `n` points. */
  function Kids(n: nat, b: nat): nat
    decreases n - b
  {
    if b >= n then 0 else Forks(n, b) + Kids(n, b + 1)
  }

  /** The branches that one spawn at depth `d` records at depth `e`, itself
      and its descendants included. The three counting functions follow
      the recursion of `Spawn`, `Steps` and `Fork`. */
  function Recorded(t: Tree, d: nat, e: nat): nat
    decreases if e >= d then e - d else 0, 2, 0
  {
    if d >= t.iterations || e < d then 0
    else if e == d then 1
    else StepsRecorded(t, d, 0, e)
  }

  /** The branches recorded at depth `e` by the children of steps `b` on of
      a depth-`d` branch, and their descendants (none unless `e > d`). */
  function StepsRecorded(t: Tree, d: nat, b: nat, e: nat): nat
    decreases if e >= d then e - d else 0, 1, Count(t, d) - b
  {
    if e <= d || b >= Count(t, d) then 0
    else ForkRecorded(t, d, b, e) + StepsRecorded(t, d, b + 1, e)
  }

  /** The branches recorded at depth `e` by the children of step `b` of a
      depth-`d` branch, and their descendants (none unless `e > d`). */
  function ForkRecorded(t: Tree, d: nat, b: nat, e: nat): nat
    decreases if e >= d then e - d else 0, 0, 0
  {
    if e <= d then 0
    else
      (if b > 0 then Recorded(t, d + 1, e) else 0)
      + (if b > 0 && b == Count(t, d) - 1 then Recorded(t, d + 1, e) else 0)
  }

  /** What the children of steps `b` on record below is `Kids(n, b)` times
      what one child records. */
  lemma {:induction false} StepsRecordedProduct(t: Tree, d: nat, b: nat, e: nat)
    requires d < e
    ensures StepsRecorded(t, d, b, e) == Kids(Count(t, d), b) * Recorded(t, d + 1, e)
    decreases Count(t, d) - b
  {
    if b < Count(t, d) {
      StepsRecordedProduct(t, d, b + 1, e);
      Distribute(Forks(Count(t, d), b), Kids(Count(t, d), b + 1), Recorded(t, d + 1, e));
    }
  }

  /** A spawn below the budget records itself and, at each deeper depth,
      `n` times what one of its children records when its branch has
      `n >= 2` points; nothing deeper when `n <= 1`. */
  lemma RecordedByChildren(t: Tree, d: nat, e: nat)
    requires d < t.iterations && d < e
    ensures Count(t, d) >= 2 ==> Recorded(t, d, e) == Count(t, d) * Recorded(t, d + 1, e)
    ensures Count(t, d) <= 1 ==> Recorded(t, d, e) == 0
  {
    StepsRecordedProduct(t, d, 0, e);
    ForkRule(Count(t, d));
  }

  /** The forking rule: from step `b` on, a branch of `n >= 2` points forks
      one child per remaining step past the first, plus one at its tip. */
  lemma {:induction false} KidsFrom(n: nat, b: nat)
    requires n >= 2 && b < n
    ensures Kids(n, b) == n - Max(b, 1) + 1
    decreases n - b
  {
    if b < n - 1 {
      KidsFrom(n, b + 1);
    }
  }

  /** A branch of `n` points has `n` children when `n >= 2` and none when
      `n <= 1`. */
  lemma ForkRule(n: nat)
    ensures n >= 2 ==> Kids(n, 0) == n
    ensures n <= 1 ==> Kids(n, 0) == 0
  {
    if n >= 2 {
      KidsFrom(n, 0);
    } else if n == 1 {
      assert Kids(1, 1) == 0;
    }
  }

  /** The factor by which the number of branches grows from depth `e` to
      depth `e + 1`: every depth-`e` branch has `Count(t, e)` points and so
      that many children when it has at least two, none otherwise, and
      none are recorded at or past the depth budget. */
  function Fan(t: Tree, e: nat): nat
  {
    if e + 1 < t.iterations && Count(t, e) >= 2 then Count(t, e) else 0
  }

  /** Level by level, the number of branches a grown tree holds at depth
      `e`: the trunk alone at depth 0, then `Fan` times as many at each
      next depth. */
  function Branches(t: Tree, e: nat): nat
  {
    if e == 0 then (if 0 < t.iterations then 1 else 0)
    else Branches(t, e - 1) * Fan(t, e - 1)
  }

  /** What one spawn at depth `d` records one depth further down is `Fan`
      times what it records at depth `e`. */
  lemma {:induction false} RecordedNext(t: Tree, d: nat, e: nat)
    requires d <= e
    ensures Recorded(t, d, e + 1) == Recorded(t, d, e) * Fan(t, e)
    decreases e - d
  {
    if d < t.iterations {
      RecordedByChildren(t, d, e + 1);
      if d == e {
        assert Recorded(t, d, e) == 1;
      } else {
        RecordedNext(t, d + 1, e);
        RecordedByChildren(t, d, e);
        if Count(t, d) >= 2 {
          Associate(Count(t, d), Recorded(t, d + 1, e), Fan(t, e));
        }
      }
    }
  }

  /** The recursion's depth-first count agrees with the level-by-level one. */
  lemma {:induction false} RecordedLevels(t: Tree, e: nat)
    ensures Recorded(t, 0, e) == Branches(t, e)
  {
    if e > 0 {
      RecordedLevels(t, e - 1);
      RecordedNext(t, 0, e - 1);
    }
  }

  lemma Associate(a: nat, b: nat, c: nat)
    ensures a * (b * c) == (a * b) * c
  {
  }

  lemma Distribute(a: nat, b: nat, c: nat)
    ensures (a + b) * c == a * c + b * c
  {
  }

  /** One spawn at depth `d` adds `Recorded(t, d, e)` branches at depth `e`. */
  lemma {:induction false} SpawnCounts(t: Tree, env: Env, g: Growth, pos: Point, d: nat, v: Point, e: nat)
    ensures |At(Spawn(t, env, g, pos, d, v).points, e)| == |At(g.points, e)| + Recorded(t, d, e)
    decreases t.iterations - d, 2, 0
  {
    if d < t.iterations {
      StepsCounts(t, env, Opened(t, g, d), pos, d, v, 0, e);
    }
  }

  /** Steps `b` on keep the number of branches at depth `d` and no other
      depth above it, and add what the children of those steps record. */
  lemma {:induction false} StepsCounts(t: Tree, env: Env, g: Growth, prev: Point, d: nat, v: Point, b: nat, e: nat)
    requires d < t.iterations
    requires |At(g.points, d)| > 0
    requires t.roughness ==> |At(g.polygons, d)| > 0
    ensures |At(Steps(t, env, g, prev, d, v, b).points, e)|
         == |At(g.points, e)| + StepsRecorded(t, d, b, e)
    decreases t.iterations - d, 1, Count(t, d) - b
  {
    if b < Count(t, d) {
      var placed := Place(t, env, g, prev, d, v, b);
      var f := Fork(t, env, placed.0, placed.1, d, v, b);
      assert Steps(t, env, g, prev, d, v, b) == Steps(t, env, f, placed.1, d, v, b + 1);
      assert |At(placed.0.points, e)| == |At(g.points, e)| by {
        assert Appended(g.points, placed.0.points, d, placed.1);
      }
      ForkCounts(t, env, placed.0, placed.1, d, v, b, e);
      StepsCounts(t, env, f, placed.1, d, v, b + 1, e);
      assert StepsRecorded(t, d, b, e) == ForkRecorded(t, d, b, e) + StepsRecorded(t, d, b + 1, e);
    }
  }

  /** The children of one step add what they record below depth `d`. */
  lemma {:induction false} ForkCounts(t: Tree, env: Env, g: Growth, p: Point, d: nat, v: Point, b: nat, e: nat)
    requires d < t.iterations
    ensures |At(Fork(t, env, g, p, d, v, b).points, e)|
         == |At(g.points, e)| + ForkRecorded(t, d, b, e)
    decreases t.iterations - d, 0, 0
  {
    if b > 0 {
      var v1 := env.steer(v, d + 1, b);
      SpawnCounts(t, env, g, p, d + 1, v1, e);
      if b == Count(t, d) - 1 {
        SpawnCounts(t, env, Spawn(t, env, g, p, d + 1, v1), p, d + 1, env.steer(v, d + 1, b + 1), e);
      }
    }
  }

  /** Every entry recorded at depth `e` from index `from` on holds the
      `Count(t, e)` points of a finished branch. */
  ghost predicate Finished(t: Tree, m: Layers<seq<Point>>, e: nat, from: nat)
  {
    forall i :: from <= i < |At(m, e)| ==> |At(m, e)[i]| == Count(t, e)
  }

  /** A spawn changes no entry recorded before it, and only appends
      finished branches. */
  lemma {:induction false} SpawnLayout(t: Tree, env: Env, g: Growth, pos: Point, d: nat, v: Point, e: nat)
    requires StaysPut(env.move)
    ensures var r := Spawn(t, env, g, pos, d, v);
      && At(g.points, e) <= At(r.points, e)
      && Finished(t, r.points, e, |At(g.points, e)|)
    decreases t.iterations - d, 2, 0
  {
    if d < t.iterations {
      var g1 := Opened(t, g, d);
      assert Spawn(t, env, g, pos, d, v) == Steps(t, env, g1, pos, d, v, 0);
      if e != d {
        assert At(g1.points, e) == At(g.points, e);
        StepsLayout(t, env, g1, pos, d, v, 0, e);
      } else {
        SpawnBranch(t, env, g, pos, d, v);
        OneMore(t, g.points, Spawn(t, env, g, pos, d, v).points, d);
      }
    }
  }

  /** Below the depth budget, a spawn appends exactly one branch at its own
      depth: a finished one, starting at `pos`. */
  lemma SpawnBranch(t: Tree, env: Env, g: Growth, pos: Point, d: nat, v: Point)
    requires StaysPut(env.move)
    requires d < t.iterations
    ensures var r := Spawn(t, env, g, pos, d, v);
      && |At(r.points, d)| == |At(g.points, d)| + 1
      && At(g.points, d) <= At(r.points, d)
      && |At(r.points, d)[|At(g.points, d)|]| == Count(t, d)
      && (Count(t, d) > 0 ==> StartsAt(At(r.points, d)[|At(g.points, d)|], pos))
  {
    var g1 := Opened(t, g, d);
    var r := Spawn(t, env, g, pos, d, v);
    var k := |At(g.points, d)|;
    assert r == Steps(t, env, g1, pos, d, v, 0);
    assert Last(At(g1.points, d)) == [];
    StepsBranch(t, env, g1, pos, d, v, 0);
    assert At(r.points, d)[..k] == At(g1.points, d)[..k] == At(g.points, d);
    assert At(r.points, d)[k] == Last(At(r.points, d));
    if Count(t, d) > 0 {
      StepsStart(t, env, g1, pos, d, v);
    }
  }

  /** One finished entry appended after the old ones keeps the old ones as
      a prefix and leaves every new entry finished. */
  lemma OneMore(t: Tree, m: Layers<seq<Point>>, r: Layers<seq<Point>>, d: nat)
    requires |At(r, d)| == |At(m, d)| + 1
    requires At(m, d) <= At(r, d)
    requires |At(r, d)[|At(m, d)|]| == Count(t, d)
    ensures Finished(t, r, d, |At(m, d)|)
  {
  }

  /** `r` keeps every entry of `m` at depth `d` but the last, which it may
      only extend. */
  ghost predicate Extends<T>(m: Layers<seq<T>>, r: Layers<seq<T>>, d: nat)
  {
    && |At(m, d)| > 0
    && |At(r, d)| == |At(m, d)|
    && At(r, d)[..|At(r, d)| - 1] == At(m, d)[..|At(m, d)| - 1]
    && Last(At(m, d)) <= Last(At(r, d))
  }

  /** Steps `b` on extend the last branch at depth `d` to the `Count(t, d)`
      points of a finished branch, and change no other entry at that depth. */
  lemma {:induction false} StepsBranch(t: Tree, env: Env, g: Growth, prev: Point, d: nat, v: Point, b: nat)
    requires StaysPut(env.move)
    requires d < t.iterations
    requires |At(g.points, d)| > 0
    requires t.roughness ==> |At(g.polygons, d)| > 0
    requires |Last(At(g.points, d))| == b <= Count(t, d)
    ensures var r := Steps(t, env, g, prev, d, v, b);
      && Extends(g.points, r.points, d)
      && |Last(At(r.points, d))| == Count(t, d)
    decreases Count(t, d) - b
  {
    if b < Count(t, d) {
      var placed := Place(t, env, g, prev, d, v, b);
      var f := Fork(t, env, placed.0, placed.1, d, v, b);
      assert Steps(t, env, g, prev, d, v, b) == Steps(t, env, f, placed.1, d, v, b + 1);
      assert Extends(g.points, f.points, d) && |Last(At(f.points, d))| == b + 1
          && Last(At(f.points, d))[b] == placed.1 by {
        AppendedExtends(g.points, placed.0.points, d, placed.1);
        assert At(f.points, d) == At(placed.0.points, d);
      }
      StepsBranch(t, env, f, placed.1, d, v, b + 1);
      var r := Steps(t, env, f, placed.1, d, v, b + 1);
      ExtendsTrans(g.points, f.points, r.points, d);
    } else {
      assert Last(At(g.points, d)) <= Last(At(g.points, d));
    }
  }

  /** A branch grown from its first step starts where it was spawned: the
      first step moves no distance from `prev`. */
  lemma StepsStart(t: Tree, env: Env, g: Growth, prev: Point, d: nat, v: Point)
    requires StaysPut(env.move)
    requires d < t.iterations
    requires |At(g.points, d)| > 0
    requires t.roughness ==> |At(g.polygons, d)| > 0
    requires |Last(At(g.points, d))| == 0 < Count(t, d)
    ensures var r := Steps(t, env, g, prev, d, v, 0);
      |At(r.points, d)| > 0 && StartsAt(Last(At(r.points, d)), prev)
  {
    var placed := Place(t, env, g, prev, d, v, 0);
    var f := Fork(t, env, placed.0, placed.1, d, v, 0);
    assert Steps(t, env, g, prev, d, v, 0) == Steps(t, env, f, placed.1, d, v, 1);
    assert placed.1 == prev by {
      assert placed.1 == env.move(prev, 0.0, v);
    }
    assert Last(At(f.points, d)) == [prev] by {
      assert At(f.points, d) == At(placed.0.points, d);
    }
    StepsBranch(t, env, f, placed.1, d, v, 1);
  }

  lemma AppendedExtends<T>(m: Layers<seq<T>>, r: Layers<seq<T>>, d: nat, x: T)
    requires Appended(m, r, d, x)
    ensures Extends(m, r, d)
    ensures |Last(At(r, d))| == |Last(At(m, d))| + 1
    ensures Last(At(r, d))[|Last(At(m, d))|] == x
  {
  }

  lemma ExtendsTrans<T>(a: Layers<seq<T>>, b: Layers<seq<T>>, c: Layers<seq<T>>, d: nat)
    requires Extends(a, b, d) && Extends(b, c, d)
    ensures Extends(a, c, d)
  {
    PrefixTrans(Last(At(a, d)), Last(At(b, d)), Last(At(c, d)));
  }

  /** Steps `b` on change no entry recorded at other depths, and only append
      finished branches there. */
  lemma {:induction false} StepsLayout(t: Tree, env: Env, g: Growth, prev: Point, d: nat, v: Point, b: nat, e: nat)
    requires StaysPut(env.move)
    requires d < t.iterations
    requires |At(g.points, d)| > 0
    requires t.roughness ==> |At(g.polygons, d)| > 0
    requires e != d
    ensures var r := Steps(t, env, g, prev, d, v, b);
      At(g.points, e) <= At(r.points, e) && Finished(t, r.points, e, |At(g.points, e)|)
    decreases t.iterations - d, 1, Count(t, d) - b
  {
    if b < Count(t, d) {
      var placed := Place(t, env, g, prev, d, v, b);
      var f := Fork(t, env, placed.0, placed.1, d, v, b);
      assert Steps(t, env, g, prev, d, v, b) == Steps(t, env, f, placed.1, d, v, b + 1);
      assert At(placed.0.points, e) == At(g.points, e) by {
        assert Appended(g.points, placed.0.points, d, placed.1);
      }
      assert At(g.points, e) <= At(f.points, e) && Finished(t, f.points, e, |At(g.points, e)|) by {
        ForkLayout(t, env, placed.0, placed.1, d, v, b, e);
      }
      StepsLayout(t, env, f, placed.1, d, v, b + 1, e);
      ComposeLayout(t, g.points, f.points, Steps(t, env, f, placed.1, d, v, b + 1).points, e);
    }
  }

  /** The children of one step change no recorded entry, and only append
      finished branches. */
  lemma {:induction false} ForkLayout(t: Tree, env: Env, g: Growth, p: Point, d: nat, v: Point, b: nat, e: nat)
    requires StaysPut(env.move)
    requires d < t.iterations
    ensures var r := Fork(t, env, g, p, d, v, b);
      At(g.points, e) <= At(r.points, e) && Finished(t, r.points, e, |At(g.points, e)|)
    decreases t.iterations - d, 0, 0
  {
    if b > 0 {
      var v1 := env.steer(v, d + 1, b);
      var g1 := Spawn(t, env, g, p, d + 1, v1);
      SpawnLayout(t, env, g, p, d + 1, v1, e);
      if b == Count(t, d) - 1 {
        var v2 := env.steer(v, d + 1, b + 1);
        SpawnLayout(t, env, g1, p, d + 1, v2, e);
        var r := Spawn(t, env, g1, p, d + 1, v2);
        PrefixTrans(At(g.points, e), At(g1.points, e), At(r.points, e));
        FinishedTrans(t, g1.points, r.points, e, |At(g.points, e)|);
      }
    }
  }

  lemma PrefixTrans<T>(a: seq<T>, b: seq<T>, c: seq<T>)
    requires a <= b && b <= c
    ensures a <= c
  {
    assert b[..|a|] == a;
    assert c[..|b|] == b;
  }

  /** Finished entries from `from` on stay finished when a later stage keeps
      them and finishes everything it appends. */
  lemma FinishedTrans(t: Tree, m: Layers<seq<Point>>, r: Layers<seq<Point>>, e: nat, from: nat)
    requires Finished(t, m, e, from)
    requires At(m, e) <= At(r, e)
    requires Finished(t, r, e, |At(m, e)|)
    ensures Finished(t, r, e, from)
  {
    forall i | from <= i < |At(r, e)|
      ensures |At(r, e)[i]| == Count(t, e)
    {
      if i < |At(m, e)| {
        assert At(r, e)[i] == At(m, e)[i];
      }
    }
  }

  /** Two stages that each keep old entries and finish what they append
      keep and finish together. */
  lemma ComposeLayout(t: Tree, a: Layers<seq<Point>>, b: Layers<seq<Point>>, c: Layers<seq<Point>>, e: nat)
    requires At(a, e) <= At(b, e) && Finished(t, b, e, |At(a, e)|)
    requires At(b, e) <= At(c, e) && Finished(t, c, e, |At(b, e)|)
    ensures At(a, e) <= At(c, e) && Finished(t, c, e, |At(a, e)|)
  {
    PrefixTrans(At(a, e), At(b, e), At(c, e));
    FinishedTrans(t, b, c, e, |At(a, e)|);
  }
}

=== FILE: sorting.dfy ===
/** Python's stable `list.sort` on points, keyed by one coordinate, in
    ascending or (with `reverse=True`) descending order. */
module Sorting {
  import opened Geometry

  datatype Axis = X | Y

  datatype Order = Ascending | Descending

  function Key(p: Point, axis: Axis): real
  {
    match axis
    case X => p.x
    case Y => p.y
  }

  /** `a` may stand before `b` in a list sorted by `axis` in `order`. */
  predicate InOrder(a: Point, b: Point, axis: Axis, order: Order)
  {
    match order
    case Ascending => Key(a, axis) <= Key(b, axis)
    case Descending => Key(a, axis) >= Key(b, axis)
  }

  predicate Sorted(s: seq<Point>, axis: Axis, order: Order)
  {
    forall i, j :: 0 <= i < j < |s| ==> InOrder(s[i], s[j], axis, order)
  }

  /** Places `p` before the first element it may precede, so that among equal
      keys the earlier input stays first. */
  function Insert(p: Point, s: seq<Point>, axis: Axis, order: Order): (r: seq<Point>)
    requires Sorted(s, axis, order)
    ensures Sorted(r, axis, order)
    ensures multiset(r) == multiset(s) + multiset{p}
    ensures |r| == |s| + 1
  {
    if |s| == 0 then [p]
    else if InOrder(p, s[0], axis, order) then [p] + s
    else
      var rest := Insert(p, s[1..], axis, order);
      assert s == [s[0]] + s[1..];
      assert forall k :: 0 <= k < |rest| ==> InOrder(s[0], rest[k], axis, order) by {
        forall k | 0 <= k < |rest|
          ensures InOrder(s[0], rest[k], axis, order)
        {
          assert rest[k] in multiset(rest);
          assert rest[k] == p || rest[k] in multiset(s[1..]);
        }
      }
      [s[0]] + rest
  }

  /** The stable sort of `s`: sorted, and a permutation of its input. */
  function Sort(s: seq<Point>, axis: Axis, order: Order): (r: seq<Point>)
    ensures Sorted(r, axis, order)
    ensures multiset(r) == multiset(s)
    ensures |r| == |s|
  {
    if |s| == 0 then []
    else
      assert s == [s[0]] + s[1..];
      Insert(s[0], Sort(s[1..], axis, order), axis, order)
  }
}

=== FILE: twigs.dfy ===
/** The bookkeeping the recursion keeps straight at every depth: a depth is
    only ever recorded together with a branch, and with roughness on the
    polygon dictionary mirrors the point dictionary, one twig per branch
    and one polygon per point, each polygon fitting around its point. */
module Twigs {
  import opened Geometry
  import opened Roughness
  import opened Growth

  /** A twig dresses a branch: one polygon per point, each around its point. */
  ghost predicate Clad(t: Tree, branch: seq<Point>, twig: seq<seq<Point>>)
  {
    && |twig| == |branch|
    && forall j :: 0 <= j < |branch| ==> Rough(branch[j], twig[j], Span(t.thickness))
  }

  /** Every branch recorded at depth `e` has its twig at the same index. */
  ghost predicate Twinned(t: Tree, points: Layers<seq<Point>>, polygons: Layers<seq<seq<Point>>>, e: nat)
  {
    && |At(polygons, e)| == |At(points, e)|
    && forall i :: 0 <= i < |At(points, e)| ==> Clad(t, At(points, e)[i], At(polygons, e)[i])
  }

  /** The records at depth `e` are in order: a recorded depth holds a
      branch; with roughness on, the depth is recorded in both dictionaries
      or in neither, and its branches are twinned; with roughness off, no
      polygon depth is recorded at all. */
  ghost predicate Tidy(t: Tree, points: Layers<seq<Point>>, polygons: Layers<seq<seq<Point>>>, e: nat)
  {
    && (e in points ==> |points[e]| > 0)
    && (t.roughness ==> (e in polygons <==> e in points) && Twinned(t, points, polygons, e))
    && (!t.roughness ==> e !in polygons)
  }

  /** Every polygon the environment builds fits around its point. */
  ghost predicate Fitting(t: Tree, env: Env)
  {
    forall p, c :: Rough(p, env.roughen(p, c), Span(t.thickness))
  }

  /** The recursion's polygons are the roughness polygons of `Wrap`. */
  lemma WrapFits(t: Tree, env: Env)
    requires forall p, c :: env.roughen(p, c) == Wrap(p, Span(t.thickness), env.rng, c)
    ensures Fitting(t, env)
  {
    forall p, c
      ensures Rough(p, env.roughen(p, c), Span(t.thickness))
    {
      WrapQuadrants(p, Span(t.thickness), env.rng, c);
    }
  }

  lemma TidyOpened(t: Tree, g: Growth, d: nat, e: nat)
    requires Tidy(t, g.points, g.polygons, e)
    ensures var r := Opened(t, g, d); Tidy(t, r.points, r.polygons, e)
  {
    var r := Opened(t, g, d);
    if t.roughness && e == d {
      var k := |At(g.points, d)|;
      forall i | 0 <= i < |At(r.points, e)|
        ensures Clad(t, At(r.points, e)[i], At(r.polygons, e)[i])
      {
        if i < k {
          assert At(r.points, e)[i] == At(g.points, e)[i];
          assert At(r.polygons, e)[i] == At(g.polygons, e)[i];
        } else {
          assert At(r.points, e)[i] == [] && At(r.polygons, e)[i] == [];
        }
      }
    }
  }

  lemma TidyPlaced(t: Tree, env: Env, g: Growth, prev: Point, d: nat, v: Point, b: nat, e: nat)
    requires Fitting(t, env)
    requires |At(g.points, d)| > 0
    requires t.roughness ==> |At(g.polygons, d)| > 0
    requires Tidy(t, g.points, g.polygons, e)
    ensures var r := Place(t, env, g, prev, d, v, b).0; Tidy(t, r.points, r.polygons, e)
  {
    var placed := Place(t, env, g, prev, d, v, b);
    var r := placed.0;
    var x := placed.1;
    assert Appended(g.points, r.points, d, x);
    if t.roughness {
      var poly := env.roughen(x, StepDistance(t, d, b, env.rng, g.cursor).1);
      assert Appended(g.polygons, r.polygons, d, poly);
      if e == d {
        var k := |At(g.points, d)| - 1;
        assert Rough(x, poly, Span(t.thickness));
        forall i | 0 <= i < |At(r.points, e)|
          ensures Clad(t, At(r.points, e)[i], At(r.polygons, e)[i])
        {
          if i < k {
            assert At(r.points, e)[i] == At(r.points, e)[..k][i] == At(g.points, e)[i];
            assert At(r.polygons, e)[i] == At(r.polygons, e)[..k][i] == At(g.polygons, e)[i];
          } else {
            assert Clad(t, At(g.points, e)[k], At(g.polygons, e)[k]);
          }
        }
      }
    }
  }

  /** A spawn keeps the records at every depth in order. */
  lemma {:induction false} SpawnTidy(t: Tree, env: Env, g: Growth, pos: Point, d: nat, v: Point, e: nat)
    requires Fitting(t, env)
    requires Tidy(t, g.points, g.polygons, e)
    ensures var r := Spawn(t, env, g, pos, d, v); Tidy(t, r.points, r.polygons, e)
    decreases t.iterations - d, 2, 0
  {
    if d < t.iterations {
      var g1 := Opened(t, g, d);
      assert Spawn(t, env, g, pos, d, v) == Steps(t, env, g1, pos, d, v, 0);
      TidyOpened(t, g, d, e);
      StepsTidy(t, env, g1, pos, d, v, 0, e);
    }
  }

  lemma {:induction false} StepsTidy(t: Tree, env: Env, g: Growth, prev: Point, d: nat, v: Point, b: nat, e: nat)
    requires Fitting(t, env)
    requires d < t.iterations
    requires |At(g.points, d)| > 0
    requires t.roughness ==> |At(g.polygons, d)| > 0
    requires Tidy(t, g.points, g.polygons, e)
    ensures var r := Steps(t, env, g, prev, d, v, b); Tidy(t, r.points, r.polygons, e)
    decreases t.iterations - d, 1, Count(t, d) - b
  {
    if b < Count(t, d) {
      var placed := Place(t, env, g, prev, d, v, b);
      var f := Fork(t, env, placed.0, placed.1, d, v, b);
      assert Steps(t, env, g, prev, d, v, b) == Steps(t, env, f, placed.1, d, v, b + 1);
      TidyPlaced(t, env, g, prev, d, v, b, e);
      ForkTidy(t, env, placed.0, placed.1, d, v, b, e);
      assert |At(f.points, d)| > 0 && (t.roughness ==> |At(f.polygons, d)| > 0) by {
        assert Appended(g.points, placed.0.points, d, placed.1);
        assert At(f.points, d) == At(placed.0.points, d);
        assert At(f.polygons, d) == At(placed.0.polygons, d);
      }
      StepsTidy(t, env, f, placed.1, d, v, b + 1, e);
    }
  }

  lemma {:induction false} ForkTidy(t: Tree, env: Env, g: Growth, p: Point, d: nat, v: Point, b: nat, e: nat)
    requires Fitting(t, env)
    requires d < t.iterations
    requires Tidy(t, g.points, g.polygons, e)
    ensures var r := Fork(t, env, g, p, d, v, b); Tidy(t, r.points, r.polygons, e)
    decreases t.iterations - d, 0, 0
  {
    var g1 := if b > 0 then Spawn(t, env, g, p, d + 1, env.steer(v, d + 1, b)) else g;
    if b > 0 {
      SpawnTidy(t, env, g, p, d + 1, env.steer(v, d + 1, b), e);
    }
    if b > 0 && b == Count(t, d) - 1 {
      SpawnTidy(t, env, g1, p, d + 1, env.steer(v, d + 1, b + 1), e);
    }
  }
}

=== FILE: walking.dfy ===
/** Where branches go: every point of a branch after the first lies one
    legal step from the point before it, against the branch's own vector,
    and the children forked at a step walk along the vectors steered from
    their parent's. */
module Walking {
  import opened Basics
  import opened Draws
  import opened Geometry
  import opened Growth
  import opened Planting
  import opened Shape

  /** A distance step `j` of a depth-`d` branch may take: none at the first
      step, the root extension at the trunk's second step when it is
      positive, and otherwise a draw in [0.5, 1). */
  ghost predicate Legal(t: Tree, d: nat, j: nat, x: real)
  {
    if j == 0 then x == 0.0
    else if d == 0 && j == 1 && t.rootHeight > 0.0 then x == t.rootHeight
    else 0.5 <= x < 1.0
  }

  /** `p` is one legal step `j` from `a` against `v`. */
  ghost predicate Stepped(t: Tree, d: nat, j: nat, a: Point, p: Point, v: Point, move: Move)
  {
    exists x :: Legal(t, d, j, x) && p == move(a, x, v)
  }

  /** Every point of `branch` after the first is a legal step from the one
      before it, against `v`. */
  ghost predicate Walks(t: Tree, d: nat, branch: seq<Point>, v: Point, move: Move)
  {
    forall j :: 1 <= j < |branch| ==> Stepped(t, d, j, branch[j - 1], branch[j], v, move)
  }

  /** Every step distance the model draws is legal, whatever the draws. */
  lemma DistanceLegal(t: Tree, d: nat, b: nat, rng: Source, cursor: nat)
    ensures Legal(t, d, b, StepDistance(t, d, b, rng, cursor).0)
  {
  }

  /** The point a step places is one legal step from the previous point. */
  lemma PlaceStepped(t: Tree, env: Env, g: Growth, prev: Point, d: nat, v: Point, b: nat)
    requires |At(g.points, d)| > 0
    requires t.roughness ==> |At(g.polygons, d)| > 0
    ensures Stepped(t, d, b, prev, Place(t, env, g, prev, d, v, b).1, v, env.move)
  {
  }

  /** Steps `b` on keep the last branch at depth `d` walking against `v`. */
  lemma {:induction false} StepsWalks(t: Tree, env: Env, g: Growth, prev: Point, d: nat, v: Point, b: nat)
    requires StaysPut(env.move)
    requires d < t.iterations
    requires |At(g.points, d)| > 0
    requires t.roughness ==> |At(g.polygons, d)| > 0
    requires |Last(At(g.points, d))| == b <= Count(t, d)
    requires b > 0 ==> Last(Last(At(g.points, d))) == prev
    requires Walks(t, d, Last(At(g.points, d)), v, env.move)
    ensures var r := Steps(t, env, g, prev, d, v, b);
      |At(r.points, d)| > 0 && Walks(t, d, Last(At(r.points, d)), v, env.move)
    decreases Count(t, d) - b
  {
    if b < Count(t, d) {
      var placed := Place(t, env, g, prev, d, v, b);
      var f := Fork(t, env, placed.0, placed.1, d, v, b);
      assert Steps(t, env, g, prev, d, v, b) == Steps(t, env, f, placed.1, d, v, b + 1);
      var after := Last(At(f.points, d));
      assert |At(f.points, d)| > 0 && after == Last(At(g.points, d)) + [placed.1] by {
        assert At(f.points, d) == At(placed.0.points, d);
      }
      PlaceStepped(t, env, g, prev, d, v, b);
      WalkOn(t, d, Last(At(g.points, d)), prev, placed.1, v, env.move);
      StepsWalks(t, env, f, placed.1, d, v, b + 1);
    }
  }

  /** A branch that walks, extended by a legal step from its last point,
      still walks. */
  lemma WalkOn(t: Tree, d: nat, branch: seq<Point>, prev: Point, p: Point, v: Point, move: Move)
    requires |branch| > 0 ==> Last(branch) == prev
    requires Walks(t, d, branch, v, move)
    requires Stepped(t, d, |branch|, prev, p, v, move)
    ensures Walks(t, d, branch + [p], v, move)
  {
  }

  /** Below the depth budget, the branch a spawn appends at its own depth
      walks against the spawn's vector. */
  lemma SpawnWalks(t: Tree, env: Env, g: Growth, pos: Point, d: nat, v: Point)
    requires StaysPut(env.move)
    requires d < t.iterations
    ensures var r := Spawn(t, env, g, pos, d, v);
      && |At(r.points, d)| == |At(g.points, d)| + 1
      && At(g.points, d) <= At(r.points, d)
      && Walks(t, d, At(r.points, d)[|At(g.points, d)|], v, env.move)
  {
    var g1 := Opened(t, g, d);
    var r := Spawn(t, env, g, pos, d, v);
    assert r == Steps(t, env, g1, pos, d, v, 0);
    assert Last(At(g1.points, d)) == [];
    StepsWalks(t, env, g1, pos, d, v, 0);
    SpawnBranch(t, env, g, pos, d, v);
    assert At(r.points, d)[|At(g.points, d)|] == Last(At(r.points, d));
  }

  /** The children forked at step `b` walk, at depth `d + 1`, along the
      parent's vector steered at that step, and the second child at the
      last step along the one steered a step further. */
  lemma ForkWalks(t: Tree, env: Env, g: Growth, p: Point, d: nat, v: Point, b: nat, j: nat)
    requires StaysPut(env.move)
    requires d + 1 < t.iterations
    requires j < Forks(Count(t, d), b)
    ensures var r := Fork(t, env, g, p, d, v, b);
      && |At(r.points, d + 1)| > |At(g.points, d + 1)| + j
      && Walks(t, d + 1, At(r.points, d + 1)[|At(g.points, d + 1)| + j], env.steer(v, d + 1, b + j), env.move)
  {
    assert b > 0;
    if b == Count(t, d) - 1 {
      LastForkWalks(t, env, g, p, d, v, b, j);
    } else {
      assert j == 0;
      assert Fork(t, env, g, p, d, v, b) == Spawn(t, env, g, p, d + 1, env.steer(v, d + 1, b));
      SpawnWalks(t, env, g, p, d + 1, env.steer(v, d + 1, b));
    }
  }

  /** At the last step of a branch, both children walk: the first along the
      vector steered at that step, the second along the next one. */
  lemma LastForkWalks(t: Tree, env: Env, g: Growth, p: Point, d: nat, v: Point, b: nat, j: nat)
    requires StaysPut(env.move)
    requires d + 1 < t.iterations
    requires 0 < b == Count(t, d) - 1 && j < 2
    ensures var r := Fork(t, env, g, p, d, v, b);
      && |At(r.points, d + 1)| > |At(g.points, d + 1)| + j
      && Walks(t, d + 1, At(r.points, d + 1)[|At(g.points, d + 1)| + j], env.steer(v, d + 1, b + j), env.move)
  {
    var v1 := env.steer(v, d + 1, b);
    var v2 := env.steer(v, d + 1, b + 1);
    var g1 := Spawn(t, env, g, p, d + 1, v1);
    var g2 := Spawn(t, env, g1, p, d + 1, v2);
    assert Fork(t, env, g, p, d, v, b) == g2;
    SpawnWalks(t, env, g, p, d + 1, v1);
    SpawnWalks(t, env, g1, p, d + 1, v2);
    TwoWalks(t, d + 1, At(g.points, d + 1), At(g1.points, d + 1), At(g2.points, d + 1), j, v1, v2, env.move);
    if j == 0 {
      assert b + j == b;
    } else {
      assert b + j == b + 1;
    }
  }

  /** Two children appended one after the other, walking along `v1` and
      `v2` in turn. */
  lemma TwoWalks(t: Tree, d: nat, before: seq<seq<Point>>, once: seq<seq<Point>>, twice: seq<seq<Point>>,
                 j: nat, v1: Point, v2: Point, move: Move)
    requires j < 2
    requires |once| == |before| + 1 && Walks(t, d, once[|before|], v1, move)
    requires |twice| == |once| + 1 && once <= twice && Walks(t, d, twice[|once|], v2, move)
    ensures |twice| > |before| + j && Walks(t, d, twice[|before| + j], if j == 0 then v1 else v2, move)
  {
  }

  /** Walking is a property of the move alone: two moves that agree
      everywhere walk the same branches. */
  lemma WalksAlike(t: Tree, d: nat, branch: seq<Point>, v: Point, m1: Move, m2: Move)
    requires forall p, x, w :: m1(p, x, w) == m2(p, x, w)
    requires Walks(t, d, branch, v, m1)
    ensures Walks(t, d, branch, v, m2)
  {
  }

  /** Growing a fresh tree lays its trunk out from `origin` in legal steps
      of `Advance` against the trunk's vector. */
  lemma GrowWalks(t: Tree, turn: Turn, rng: Source, origin: Point)
    requires t.bpoints != 0 && t.iterations > 0
    ensures var s := Grow(t, Fresh, turn, rng, origin);
      && s.Success?
      && |At(s.value.points, 0)| > 0
      && Walks(t, 0, At(s.value.points, 0)[0],
               TrunkVector(t, turn, RoundHalfEven(t.tallness / t.bpoints as real)), Advance)
  {
    var env := Environment(t, turn, rng);
    var v := TrunkVector(t, turn, RoundHalfEven(t.tallness / t.bpoints as real));
    var g0 := Growth(map[], map[], 0);
    var g := Spawn(t, env, g0, origin, 0, v);
    assert Grow(t, Fresh, turn, rng, origin).value.points == g.points;
    SpawnWalks(t, env, g0, origin, 0, v);
    WalksAlike(t, 0, At(g.points, 0)[0], v, env.move, Advance);
  }
}
